=== FILE: README.md ===
# Network recipes of odin-ai, modelled in Dafny

This project models the network-building core of
`odin/networks/base_networks.py`:

- the argument helpers:
  - `_infer_rank_and_input_shape`, which reconciles a rank with an input shape;
  - `_as_arg_tuples`, which broadcasts per-layer arguments to one tuple per layer.
- the three recipe builders `dense_network`, `conv_network` and
  `deconv_network`. Each turns a list of units and per-layer settings into a
  list of Keras layers:
  - an input layer;
  - optional input dropout;
  - one block per unit: the main layer, optional BatchNorm, an Activation and
    optional Dropout;
  - an optional flatten/projection tail.
- `NetworkConfig`:
  - the normalisation in `__post_init__`;
  - the factories `create_network`, `create_decoder` and `create_autoencoder`.
    The decoder mirrors the encoder's per-layer settings in reverse order.
- the training bookkeeping of `Networks`:
  - the float32 step counter and `is_fitted`;
  - the round-robin choice of an optimizer in `optimize`;
  - the checks `fit` makes before it hands over to the trainer;
  - `_to_optimizer`, the helper that turns optimizer, learning-rate and
    clipnorm arguments into a list of optimizers.

Layers are plain values (`Layers.Layer`), not Keras objects. A recipe is a
`seq<Layer>`. Python exceptions become `Results.Failure` with a named error.

Modules and files:

- `results.dfy`: `Option`, `Result` and the errors the builders raise.
- `layers.dfy`: the layer datatype and the census of a layer list. A census
  lists a recipe's inputs, main layers, batch norms, activations, dropouts and
  flattens.
- `args.dfy`: scalar-or-list arguments, the `as_tuple` broadcast, per-layer
  argument tuples and their mirror image.
- `builders.dfy`: rank inference, the three builders and the facts about
  their layouts.
- `config.dfy`: the `NetworkConfig` factories.
- `optimizers.dfy`: `_to_optimizer` as written and as evidently intended.
- `training.dfy`: the step counter, `optimize`, `is_fitted` and `fit`.

## Model

| member | source | states |
|---|---|---|
| Args.AsTuple | odin/networks/base_networks.py:65-68 | Broadcasting an argument to n layers succeeds exactly when it is a scalar, a one-element list or a list of length n. Otherwise it fails with an argument-length error. On success it gives n entries, entry i is the argument's i-th value, and a list of length n comes back unchanged. |
| Args.AsTupleMirror | odin/networks/base_networks.py:940-950 | Broadcasting a reversed argument gives the reversed broadcast. This is why the decoder's `[::-1]` of each setting lines up with the encoder's layers read backwards. |
| Args.AsArgTuples | odin/networks/base_networks.py:65-68 | Building the per-layer tuples succeeds exactly when every setting broadcasts to the number of units. On success there is one tuple per unit, and tuple i holds the i-th entry of every setting. |
| Args.AsArgTuplesMirror | odin/networks/base_networks.py:937-956 | Mirrored settings over a unit list of the same length build the encoder's tuples in reverse order. Layer i of the decoder gets the activation, bias, batch-norm, dropout and window of encoder layer n-1-i. It keeps its own units and the weight settings of position i, which the decoder receives unreversed. |
| Layers.LayerNameInjective | odin/networks/base_networks.py:618 | The names `"Layer%d" % i` of two different indices differ. |
| Builders.InferRank | odin/networks/base_networks.py:71-84 | Rank inference fails when neither rank nor shape is given. It also fails when both are given and the rank is not the shape's length minus one. Otherwise it keeps the shape, keeps a given rank, and derives the rank as length minus one from a shape alone. |
| Builders.InferRankIdempotent | odin/networks/base_networks.py:71-84 | Feeding the reconciled rank back with the same shape gives the same answer. |
| Builders.MainLayer | odin/networks/base_networks.py:680-697 | The main layer of block i is a Dense or a Conv of the class's rank. It has linear activation, the block's units and weight settings, and the name `Layer<i>`. It uses a bias exactly when batch norm is off and `use_bias` is on. |
| Builders.BlockLayout | odin/networks/base_networks.py:605-623 | A block is its main layer, then a BatchNorm if requested, then the Activation, then a Dropout if the rate is positive, and nothing else. |
| Builders.BlocksCensus | odin/networks/base_networks.py:605-623 | The hidden blocks hold the expected main layers and activations in layer order. They also hold one BatchNorm per flagged layer and one Dropout per positive rate, and no input layers or flattens. |
| Builders.BlocksSplit | odin/networks/base_networks.py:605-623 | Block i sits between the blocks of layers 0..i-1 and the blocks of layers i+1..n-1. |
| Builders.BlocksAppend | odin/networks/base_networks.py:605-623 | Building the blocks of two lists of tuples one after the other gives the blocks of their concatenation. |
| Builders.MainNamesDistinct | odin/networks/base_networks.py:605-618 | The main layers of a recipe have pairwise different names. |
| Builders.TruncTowardZero | odin/networks/base_networks.py:710 | `int(projection)` truncates toward zero, for negative sizes too. |
| Builders.ProjectionTail | odin/networks/base_networks.py:703-710 | No projection or `False` adds nothing. `True` adds a Flatten. A number adds a Flatten and then a linear Dense with the truncated size. |
| Builders.DenseNetwork | odin/networks/base_networks.py:574-624 | A dense recipe exists exactly when every per-layer setting broadcasts to the number of units. Otherwise it fails with an argument-length error. |
| Builders.DenseNetworkCensus | odin/networks/base_networks.py:574-624 | A dense recipe has an input layer exactly when a shape is given and a Flatten exactly when inputs are flattened. It has one Dense per unit, with the units in order, and one activation per unit in order. It has one BatchNorm per flagged layer and one Dropout per positive rate, plus one when the input dropout is positive. |
| Builders.DenseNetworkPrefix | odin/networks/base_networks.py:599-604 | A dense recipe starts with the input layer when a shape is given, then the Flatten when requested, then the input Dropout when its rate is positive, and then the first block's main layer. |
| Builders.ConvNetwork | odin/networks/base_networks.py:627-711 | A conv recipe exists exactly when rank inference succeeds, every setting broadcasts, and the rank is 1, 2 or 3 or there are no layers. Rank errors propagate, and settings that do not broadcast fail with an argument-length error. A rank outside 1..3 with at least one layer fails because no convolution class is bound. |
| Builders.ConvNetworkLayout | odin/networks/base_networks.py:627-711 | A conv recipe has convolutions of the reconciled rank with the given filters in order, and one activation per layer in order. It has the requested BatchNorms and Dropouts, and an input Dropout only for a rate strictly between 0 and 1. It ends with the projection tail, which supplies its only Flatten and Dense. |
| Builders.DeconvNetwork | odin/networks/base_networks.py:714-791 | A deconv recipe exists under the same conditions as a conv recipe, but only for ranks 1 and 2. A three-dimensional transposed convolution fails as an unsupported rank, exactly when the rank is 3 and the settings broadcast. Rank errors propagate. |
| Builders.DeconvNetworkErrors | odin/networks/base_networks.py:714-791 | The other ways a deconv recipe fails: settings that do not broadcast give an argument-length error, and a rank outside 1..3 with at least one layer leaves the class unbound, exactly then. |
| Builders.DeconvNetworkLayout | odin/networks/base_networks.py:714-791 | A deconv recipe's rank is never 3. It has transposed convolutions of that rank in order and one activation per layer. Its BatchNorms, Dropouts and projection tail are as for the conv recipe. |
| Config.ParseKind | odin/networks/base_networks.py:855-857 | A network name is accepted exactly when it is one of the six supported names. The accepted kind names itself back. |
| Config.ParseKindName | odin/networks/base_networks.py:855-857 | Parsing the name of any kind gives that kind back. |
| Config.NewConfig | odin/networks/base_networks.py:851-857 | Normalising a configuration succeeds exactly when the network name is supported. It stores a scalar unit count as a one-element list, truncates every unit count, and keeps every other field. |
| Config.NewConfigIdempotent | odin/networks/base_networks.py:851-857 | Normalising an already normalised configuration changes nothing. |
| Config.CreateNetwork | odin/networks/base_networks.py:1004-1095 | The recurrent kinds have no encoder and fail. A dense encoder exists exactly when its settings broadcast. A conv or deconv encoder is built at the builders' default rank 2, so it exists exactly when its settings broadcast and the shape in use, if any, has three entries. The result is a Sequential exactly when one is asked for, named by the configuration's name if set, otherwise by the argument. |
| Config.ConvEncoderNeedsImageShape | odin/networks/base_networks.py:1024-1045 | A convolutional encoder given a shape that is not (height, width, channels) fails with a rank/shape mismatch. |
| Config.ShapeArgumentOverrides | odin/networks/base_networks.py:1021-1022 | An input shape passed to `create_network` replaces the configured one. |
| Config.ConfiguredNameWins | odin/networks/base_networks.py:1018-1019 | A name set in the configuration wins over the name argument. |
| Config.DecoderUnits | odin/networks/base_networks.py:937-939 | The decoder's units are the encoder's units reversed, without the last one, plus the number of channels times the number of parameters. |
| Config.DecoderStart | odin/networks/base_networks.py:926-935 | The decoder start can be built exactly when there is no numeric projection or the activation is a single value. Otherwise it fails for a list activation. |
| Config.DecoderStartLayers | odin/networks/base_networks.py:926-935 | The decoder starts with an input layer of the latent shape. Under a numeric projection it continues with a linear Dense of the projection size, a Dense to the encoder's pre-flatten size, and a Reshape to that shape. |
| Config.CreateDecoder | odin/networks/base_networks.py:897-993 | An encoder with an empty input shape fails with an index error. A linear decoder is the identity. A kind without a decoder fails. Otherwise the result is a Sequential named by the argument or "Decoder". |
| Config.ConvDecoderEnds | odin/networks/base_networks.py:923-959 | A convolutional decoder needs at least three encoder layers. It starts with the latent input layer and ends with a Reshape to the encoder's input shape. |
| Config.DenseDecoderMirrorsEncoder | odin/networks/base_networks.py:961-979 | For a non-empty input shape, whenever the dense encoder can be built, so can its decoder. The decoder's Dense widths are the encoder's in reverse order, its activations are the encoder's in reverse order, and its only input layer reads the latent code. |
| Config.ConvDecoderMirrorsEncoder | odin/networks/base_networks.py:923-959 | Whenever the conv encoder can be built with at least one unit, its input is an image of three axes and the decoder can be built too, given at least three encoder layer shapes and an activation usable by the projection. The decoder's filters are the encoder's in reverse order without the innermost one, then channels times parameters. Its activations are the encoder's in reverse order. |
| Config.CreateAutoencoder | odin/networks/base_networks.py:882-895 | An autoencoder exists exactly when the encoder can be built and a decoder can be built from it. The decoder reads one layer shape for each of the encoder's layers besides its input. The encoder is a Sequential with the encoder name, and the decoder carries the decoder name. |
| Config.ConvAutoencoderNeedsThreeLayers | odin/networks/base_networks.py:888-925 | For a conv encoder that can be built, the autoencoder fails with IndexError exactly when the encoder has fewer than three layers besides its input, since the decoder reads `encoder.layers[-3]`. |
| Config.SingleConvAutoencoderFails | odin/networks/base_networks.py:888-925 | One convolution with a scalar "relu", no batch norm, no dropout and no projection leaves two layers besides the input, so the autoencoder for a 28x28x1 image fails with IndexError. |
| Optimizers.Collect | odin/networks/base_networks.py:103-122 | Collecting converted optimizers succeeds exactly when every conversion succeeds, and then keeps them all in order. Otherwise it raises the first conversion's error. |
| Optimizers.ToOptimizersAsWritten | odin/networks/base_networks.py:93-122 | As written, the helper returns at most one optimizer per name and per clipnorm. It fails only on a class or an unsupported value. |
| Optimizers.ToOptimizers | odin/networks/base_networks.py:93-122 | When the learning rates and clipnorms broadcast, the intended helper builds one optimizer per argument exactly when none is unsupported, and optimizer i gets the i-th learning rate and clipnorm. |
| Optimizers.AsWrittenIsPrefix | odin/networks/base_networks.py:96-103 | Without classes, the helper as written returns a prefix of the intended list. |
| Optimizers.ClipnormStretchDropsOptimizers | odin/networks/base_networks.py:98-103 | As written, two names with the default clipnorm give a single optimizer. |
| Optimizers.ClipnormStretchIntended | odin/networks/base_networks.py:98-103 | The intended helper gives both optimizers for those arguments. |
| Optimizers.OptimizerClassAlwaysFails | odin/networks/base_networks.py:114-117 | As written, a lone optimizer class, with at least one learning rate and one clipnorm, raises TypeError. |
| Optimizers.ClassAfterNameNotReached | odin/networks/base_networks.py:98-117 | As written, a class listed after a name is never reached with the default clipnorm, because `zip` stops after the first entry; only the named optimizer is made and nothing is raised. |
| Optimizers.OptimizerClassIntended | odin/networks/base_networks.py:114-117 | The intended helper constructs the class with its learning rate and clipnorm. |
| Training.AddOne | odin/networks/base_networks.py:312-313 | Adding one to the float32 step counter increments every exactly representable value below 2^24 and holds at 2^24. |
| Training.AdvanceSaturates | odin/networks/base_networks.py:312-313 | k training calls move the counter to its start plus k, capped at 2^24. |
| Training.Slots | odin/networks/base_networks.py:315-323 | `optimize` cycles through the optimizers passed in, else the network's own, else a single empty slot. |
| Training.Optimize | odin/networks/base_networks.py:312-331 | A training call advances the step counter first. Every step k uses slot k mod n. The call raises for zero slots or for an empty slot on a training step, and otherwise returns the whole schedule. |
| Training.ScheduleFair | odin/networks/base_networks.py:331 | In a schedule of s steps over n slots, slot j is used s div n times, plus once more when j < s mod n. |
| Training.UsesFair | odin/networks/base_networks.py:331 | The round-robin count of slot j over s steps is s div n, plus one when j < s mod n. |
| Training.TrainingMakesFitted | odin/networks/base_networks.py:551-553 | A training call on a network whose counter is not negative leaves it fitted, even when a step then raises. |
| Training.Fit | odin/networks/base_networks.py:451-473 | `fit` skips exactly when the network is fitted and `skip_fitted` is true, or is a non-zero count that the counter has reached after `int()` truncation. Otherwise it creates the trainer and keeps any existing optimizers. With no optimizers yet, it builds them with the intended helper or raises. |
| Training.FitAsWritten | odin/networks/base_networks.py:451-473 | `fit` as written skips and creates the trainer exactly as the intended `fit` does. It is identical to it when optimizers exist or none is passed, and otherwise stores what `_to_optimizer` as written makes, or raises its error. |
| Training.FitAsWrittenIsPrefix | odin/networks/base_networks.py:469-471 | Without optimizer classes, whenever the intended `fit` gets ready, `fit` as written does too. Its state is the same except that its optimizers are a prefix of the intended ones. |
| Training.FitAsWrittenDropsOptimizer | odin/networks/base_networks.py:469-471 | A new network fitted with two optimizer names and the default clipnorm stores only the first as written, and both as intended. |
| Training.FitAsWrittenRaisesForClass | odin/networks/base_networks.py:469-471 | Fitting a new network with a lone optimizer class raises as written. As intended, it stores the constructed optimizer and gets ready. |
| Training.FitNewNetwork | odin/networks/base_networks.py:188-202 | A network built with a step of zero or less never skips its first `fit`. It creates its trainer and keeps its step. It gets ready exactly when an optimizer is passed that the helper accepts, and then holds the optimizers the helper made. Without an optimizer it raises. |
| Training.SkipFractionAlwaysSkips | odin/networks/base_networks.py:451-456 | A float `skip_fitted` strictly between 0 and 1 is truthy but truncates to 0, so `fit` skips exactly when the network is fitted. |
| Training.SkipIntegralFloat | odin/networks/base_networks.py:451-456 | A float `skip_fitted` holding a whole number skips exactly when the same int would. |
| Training.FitKeepsOptimizers | odin/networks/base_networks.py:469-473 | A second `fit` after a ready one keeps the optimizers and is ready again, whatever optimizer it is given. |
| Training.TrainThenSkip | odin/networks/base_networks.py:451-456 | After a training step, `fit(skip_fitted=True)` returns without changing anything. |

## Left out

- Keras and TensorFlow are not part of this model. Layers are records of their settings, and initializers, regularizers and constraints are plain names.
- `as_tuple` is not part of this model. It is taken to repeat a scalar or a one-element list N times and to accept a list of length N as it is. The one-element case matters because `create_decoder` passes flattened one-element lists. `_as_arg_tuples` also passes `t=int` for the units (line 66), a type check on their entries; the model types units as integers, so that check cannot fail here and is not modelled.
- `_shape` is not modelled. It flattens nested shape lists, and shapes here are already flat lists of integers.
- Keras shape inference is not modelled. `create_decoder` takes the encoder's input shape and the output shapes of its layers as inputs (`Config.EncoderView`). `create_autoencoder` computes them from the encoder it has just built: the input shape it was given, and one output shape for each layer Keras lists (`Config.KerasLayers`, every layer but the input layer). Each of those shapes comes from a shape-inference function passed as a parameter (`Config.OutputShapes`).
- `Training.AddOne`: step counters outside ±2^24 are not modelled, because float32 rounding there loses the unit step.
- `Training.Fit`: it creates optimizers with the corrected `_to_optimizer`, as the rest of the model does. The source as written calls the helper with both findings below. `Training.FitAsWritten` models that call, and `Training.FitAsWrittenIsPrefix` relates the two.
- `skip_fitted` values other than a bool, an int or a float are not modelled. They reach `int()` only in ways the source does not document.
- `Training.Fit`: the data conversion is left out, and so are its errors. `int(batch_size)` and `_to_dataset` of the training and validation data run first (lines 445-449), before the skip check, so bad data raises even where the model gives `Skipped`. `train.repeat(int(epochs))` runs after the trainer is created and before the optimizers are (lines 465-466).
- `Training.Fit`: the trainer loop, callbacks, early stopping and logging are left out. They run after the checks modelled here (lines 474 onward).
- `Training.Optimize`: gradients, the loss, metrics and `apply_gradients` are left out. Only the step counter and the choice of optimizer per step are modelled.
- Weight saving and loading, `n_parameters`, `__new__`'s harvesting of constructor arguments, `MD5object` hashing, `layer2text` and the `.copy` lambdas attached to the built networks are left out. None of them affects which layers a recipe holds.
- `conv_network`'s `name` argument is never used by its body, so it is not modelled.
- `create_network` is also reachable as `__call__`. That alias is not modelled separately.
- `Builders.ConvNetworkLayout`, `Builders.DeconvNetworkLayout` and `Builders.DenseNetworkCensus` state the layers of a recipe as a census: ordered main layers and activations, plus counts of the other kinds. The position of each BatchNorm and Dropout is stated per block by `Builders.BlockLayout` and `Builders.BlocksSplit`.
- `Config.DenseDecoderMirrorsEncoder` and `Config.ConvDecoderMirrorsEncoder` state the mirrored widths and activations. They do not restate the mirrored bias, batch-norm and dropout flags, which `Args.AsArgTuplesMirror` states for the argument tuples both recipes are built from.
- `Config.ConvDecoderMirrorsEncoder` covers encoders with a three-axis (image) input. `create_network` always builds the conv encoder at `conv_network`'s default rank 2, so no other conv encoder exists to be mirrored. The decoder alone also builds a one-dimensional transposed stack for a two-axis input shape; `Config.ConvDecoderBody` models that case through `Config.DecoderRank`, but no mirror lemma states it.
- The other modules of the repository are not part of this model: the data pipelines, the Bayesian layers and the other network families.

## Findings

| source | as written | input that shows it | evidently intended | confidence | as-written member | corrected member |
|---|---|---|---|---|---|---|
| odin/networks/base_networks.py:100 | A single clipnorm is repeated `len(clipnorm)` times, so it stays one entry, and `zip` then stops after the first optimizer. | `optimizer=['adam', 'sgd']`, `learning_rate=1e-3`, `clipnorm=None` gives only the Adam optimizer. | Repeat it `len(optimizer)` times, as line 98 does for the learning rate, so that every optimizer gets one. | high, not executed | Optimizers.ClipnormStretchDropsOptimizers | Optimizers.ToOptimizers |
| odin/networks/base_networks.py:114-117 | An optimizer class is called with `float(learning_rate)` of the whole learning-rate list and with the whole clipnorm list. `float` of a list raises TypeError. | `optimizer=tf.optimizers.Adam`, a lone class, with at least one learning rate and one clipnorm (the defaults give one of each). | Construct the class with the learning rate and clipnorm of its own zipped entry. | high, not executed | Optimizers.OptimizerClassAlwaysFails | Optimizers.OptimizerClassIntended |

=== FILE: args.dfy ===
/** Scalar-or-list arguments and their broadcasting to one value per layer:
    `odin.utils.as_tuple` and `_as_arg_tuples`. */
module Args {
  import opened Results
  import opened Layers

  /** A builder argument as a Python caller writes it: one value for every
      layer, or a list with one entry per layer. */
  datatype Arg<+T> = Scalar(x: T) | Many(xs: seq<T>)

  /** `tf.nest.flatten` of a flat argument. */
  function AsList<T>(a: Arg<T>): seq<T>
  {
    match a
    case Scalar(x) => [x]
    case Many(xs) => xs
  }

  function Reverse<T>(s: seq<T>): (r: seq<T>)
    ensures |r| == |s|
  {
    seq(|s|, i requires 0 <= i < |s| => s[|s| - 1 - i])
  }

  /** `tf.nest.flatten(a)[::-1]`, the way the decoder hands an encoder
      argument back to a builder. */
  function Mirror<T>(a: Arg<T>): Arg<T>
  {
    Many(Reverse(AsList(a)))
  }

  /** as_tuple(a, N=n) succeeds: a scalar or a one-element list is repeated,
      any other list must already have n entries. */
  predicate Fits<T>(a: Arg<T>, n: nat)
  {
    a.Scalar? || |a.xs| == 1 || |a.xs| == n
  }

  /** The value a broadcast argument gives layer i. */
  function Entry<T>(a: Arg<T>, i: nat): T
    requires a.Many? ==> |a.xs| == 1 || i < |a.xs|
  {
    match a
    case Scalar(x) => x
    case Many(xs) => if |xs| == 1 then xs[0] else xs[i]
  }

  /** `as_tuple(a, N=n)`. The helper itself is not part of this model; its
      behaviour is the one stated by `Fits`. */
  function AsTuple<T>(a: Arg<T>, n: nat): (r: Result<seq<T>>)
    ensures r.Success? <==> Fits(a, n)
    ensures r.Failure? ==> r.error == ArgLengthMismatch
    ensures r.Success? ==> |r.value| == n
    ensures r.Success? ==> forall i | 0 <= i < n :: r.value[i] == Entry(a, i)
    ensures r.Success? && a.Many? && |a.xs| == n ==> r.value == a.xs
  {
    match a
    case Scalar(x) => Success(seq(n, _ => x))
    case Many(xs) =>
      if |xs| == 1 then Success(seq(n, _ => xs[0]))
      else if |xs| == n then Success(xs)
      else Failure(ArgLengthMismatch)
  }

  /** A scalar and the one-element list holding it broadcast identically. */
  lemma AsTupleScalarIsSingleton<T>(x: T, n: nat)
    ensures AsTuple(Scalar(x), n) == AsTuple(Many([x]), n)
  {
  }

  /** Layer i of the reversed argument gets what layer n-1-i got from the
      original one. */
  lemma EntryMirror<T>(a: Arg<T>, n: nat, i: nat)
    requires Fits(a, n) && i < n
    ensures Fits(Mirror(a), n)
    ensures Entry(Mirror(a), i) == Entry(a, n - 1 - i)
  {
    if a.Many? && |a.xs| != 1 {
      assert Reverse(a.xs)[i] == a.xs[n - 1 - i];
    }
  }

  /** Broadcasting the reversed list gives the reversed broadcast: the
      decoder's per-layer settings are the encoder's, read backwards. */
  lemma AsTupleMirror<T>(a: Arg<T>, n: nat)
    requires Fits(a, n)
    ensures Fits(Mirror(a), n)
    ensures AsTuple(Mirror(a), n).value == Reverse(AsTuple(a, n).value)
  {
    var r, m := AsTuple(a, n).value, AsTuple(Mirror(a), n).value;
    assert Fits(Mirror(a), n) by {
      if n > 0 { EntryMirror(a, n, 0); } else if a.Many? { assert |Mirror(a).xs| == |a.xs|; }
    }
    forall i | 0 <= i < n
      ensures m[i] == Reverse(r)[i]
    {
      EntryMirror(a, n, i);
    }
  }

  // ---------------------------------------------------------------------
  // _as_arg_tuples
  // ---------------------------------------------------------------------

  datatype WeightArgs = WeightArgs(
    kernelInitializer: Arg<Option<string>>,
    biasInitializer: Arg<Option<string>>,
    kernelRegularizer: Arg<Option<string>>,
    biasRegularizer: Arg<Option<string>>,
    activityRegularizer: Arg<Option<string>>,
    kernelConstraint: Arg<Option<string>>,
    biasConstraint: Arg<Option<string>>)

  /** The arguments every builder broadcasts over its hidden layers. */
  datatype BlockArgs = BlockArgs(
    activation: Arg<string>,
    useBias: Arg<bool>,
    batchnorm: Arg<bool>,
    dropout: Arg<real>,
    weights: WeightArgs)

  /** The window arguments of the two convolution builders. */
  datatype WindowArgs = WindowArgs(kernel: Arg<int>, strides: Arg<int>, padding: Arg<string>, dilation: Arg<int>)

  /** Everything one hidden layer is built from, read off the broadcast
      tuples at its index; `window` is None for dense layers. */
  datatype LayerSpec = LayerSpec(
    units: int,
    activation: string,
    useBias: bool,
    batchnorm: bool,
    dropout: real,
    weights: WeightSettings,
    window: Option<Window>)

  predicate WeightArgsFit(w: WeightArgs, n: nat)
  {
    && Fits(w.kernelInitializer, n) && Fits(w.biasInitializer, n)
    && Fits(w.kernelRegularizer, n) && Fits(w.biasRegularizer, n)
    && Fits(w.activityRegularizer, n)
    && Fits(w.kernelConstraint, n) && Fits(w.biasConstraint, n)
  }

  predicate BlockArgsFit(b: BlockArgs, n: nat)
  {
    Fits(b.activation, n) && Fits(b.useBias, n) && Fits(b.batchnorm, n) && Fits(b.dropout, n)
    && WeightArgsFit(b.weights, n)
  }

  predicate WindowArgsFit(w: WindowArgs, outputPadding: Arg<Option<int>>, n: nat)
  {
    Fits(w.kernel, n) && Fits(w.strides, n) && Fits(w.padding, n) && Fits(w.dilation, n)
    && Fits(outputPadding, n)
  }

  /** The number of hidden layers: the length of `as_tuple(units)`. */
  function LayerCount(units: Arg<int>): nat
  {
    |AsList(units)|
  }

  /** The weight settings of layer i. */
  function WeightsAt(w: WeightArgs, n: nat, i: nat): WeightSettings
    requires WeightArgsFit(w, n) && i < n
  {
    WeightSettings(Entry(w.kernelInitializer, i), Entry(w.biasInitializer, i),
                   Entry(w.kernelRegularizer, i), Entry(w.biasRegularizer, i),
                   Entry(w.activityRegularizer, i), Entry(w.kernelConstraint, i), Entry(w.biasConstraint, i))
  }

  /** The window of layer i. */
  function WindowAt(w: WindowArgs, outputPadding: Arg<Option<int>>, n: nat, i: nat): Window
    requires WindowArgsFit(w, outputPadding, n) && i < n
  {
    Window(Entry(w.kernel, i), Entry(w.strides, i), Entry(w.padding, i), Entry(w.dilation, i), Entry(outputPadding, i))
  }

  /** The arguments of a builder broadcast to `n` layers. */
  predicate ArgsFit(b: BlockArgs, window: Option<WindowArgs>, outputPadding: Arg<Option<int>>, n: nat)
  {
    BlockArgsFit(b, n) && (window.Some? ==> WindowArgsFit(window.value, outputPadding, n))
  }

  /** Everything layer i is built from: the i-th unit count and the i-th
      entry of every other broadcast argument. */
  function SpecAt(units: seq<int>, b: BlockArgs, window: Option<WindowArgs>, outputPadding: Arg<Option<int>>,
                  i: nat): LayerSpec
    requires ArgsFit(b, window, outputPadding, |units|) && i < |units|
  {
    LayerSpec(units[i], Entry(b.activation, i), Entry(b.useBias, i), Entry(b.batchnorm, i), Entry(b.dropout, i),
              WeightsAt(b.weights, |units|, i),
              if window.Some? then Some(WindowAt(window.value, outputPadding, |units|, i)) else None)
  }

  function WeightTuples(w: WeightArgs, n: nat): (r: Result<seq<WeightSettings>>)
    ensures r.Success? <==> WeightArgsFit(w, n)
    ensures r.Success? ==> |r.value| == n && forall i | 0 <= i < n :: r.value[i] == WeightsAt(w, n, i)
  {
    var ki :- AsTuple(w.kernelInitializer, n);
    var bi :- AsTuple(w.biasInitializer, n);
    var kr :- AsTuple(w.kernelRegularizer, n);
    var br :- AsTuple(w.biasRegularizer, n);
    var ar :- AsTuple(w.activityRegularizer, n);
    var kc :- AsTuple(w.kernelConstraint, n);
    var bc :- AsTuple(w.biasConstraint, n);
    Success(seq(n, i requires 0 <= i < n => WeightSettings(ki[i], bi[i], kr[i], br[i], ar[i], kc[i], bc[i])))
  }

  function WindowTuples(w: WindowArgs, outputPadding: Arg<Option<int>>, n: nat): (r: Result<seq<Window>>)
    ensures r.Success? <==> WindowArgsFit(w, outputPadding, n)
    ensures r.Success? ==> |r.value| == n && forall i | 0 <= i < n :: r.value[i] == WindowAt(w, outputPadding, n, i)
  {
    var k :- AsTuple(w.kernel, n);
    var s :- AsTuple(w.strides, n);
    var p :- AsTuple(w.padding, n);
    var d :- AsTuple(w.dilation, n);
    var o :- AsTuple(outputPadding, n);
    Success(seq(n, i requires 0 <= i < n => Window(k[i], s[i], p[i], d[i], o[i])))
  }

  /** `_as_arg_tuples(units, ...)`: every argument is broadcast to the length
      n of the units tuple, and layer i is described by the i-th entry of
      each tuple. `window` is absent for `dense_network`, which takes no
      window arguments; `conv_network` passes the scalar None as output
      padding, which always broadcasts and leaves the entry unset. */
  function AsArgTuples(units: Arg<int>, b: BlockArgs, window: Option<WindowArgs>,
                       outputPadding: Arg<Option<int>>): (r: Result<seq<LayerSpec>>)
    ensures r.Success? <==> ArgsFit(b, window, outputPadding, LayerCount(units))
    ensures r.Failure? ==> r.error == ArgLengthMismatch
    ensures r.Success? ==> |r.value| == LayerCount(units)
    ensures r.Success? ==> forall i | 0 <= i < |r.value| ::
      r.value[i] == SpecAt(AsList(units), b, window, outputPadding, i)
  {
    var ref := AsList(units);
    var n := |ref|;
    var act :- AsTuple(b.activation, n);
    var bias :- AsTuple(b.useBias, n);
    var bn :- AsTuple(b.batchnorm, n);
    var drop :- AsTuple(b.dropout, n);
    var ws :- WeightTuples(b.weights, n);
    var wins :- match window
                case None => Success(seq(n, _ => None))
                case Some(w) =>
                  var t :- WindowTuples(w, outputPadding, n);
                  Success(seq(n, i requires 0 <= i < n => Some(t[i])));
    Success(seq(n, i requires 0 <= i < n => LayerSpec(ref[i], act[i], bias[i], bn[i], drop[i], ws[i], wins[i])))
  }

  // ---------------------------------------------------------------------
  // Reading the encoder's arguments backwards
  // ---------------------------------------------------------------------

  /** The per-layer arguments a decoder receives: each flattened and
      reversed, except the weight settings, which are handed on as given. */
  function MirrorBlock(b: BlockArgs): BlockArgs
  {
    BlockArgs(Mirror(b.activation), Mirror(b.useBias), Mirror(b.batchnorm), Mirror(b.dropout), b.weights)
  }

  function MirrorWindow(w: WindowArgs): WindowArgs
  {
    WindowArgs(Mirror(w.kernel), Mirror(w.strides), Mirror(w.padding), Mirror(w.dilation))
  }

  function MirrorWindowOf(w: Option<WindowArgs>): Option<WindowArgs>
  {
    match w
    case None => None
    case Some(x) => Some(MirrorWindow(x))
  }

  lemma MirrorFits<T>(a: Arg<T>, n: nat)
    requires Fits(a, n)
    ensures Fits(Mirror(a), n)
  {
  }

  /** Mirroring keeps every argument broadcastable to the same length. */
  lemma MirrorArgsFit(b: BlockArgs, window: Option<WindowArgs>, o: Option<int>, n: nat)
    requires ArgsFit(b, window, Scalar(o), n)
    ensures ArgsFit(MirrorBlock(b), MirrorWindowOf(window), Scalar(o), n)
  {
    MirrorFits(b.activation, n);
    MirrorFits(b.useBias, n);
    MirrorFits(b.batchnorm, n);
    MirrorFits(b.dropout, n);
    if window.Some? {
      var w := window.value;
      MirrorFits(w.kernel, n);
      MirrorFits(w.strides, n);
      MirrorFits(w.padding, n);
      MirrorFits(w.dilation, n);
    }
  }

  /** Layer i built from the mirrored arguments has the settings of layer
      n-1-i built from the original ones, except for its units and for the
      weight settings, which stay at position i. */
  lemma SpecAtMirror(units: seq<int>, units2: seq<int>, b: BlockArgs, window: Option<WindowArgs>,
                     o: Option<int>, i: nat)
    requires ArgsFit(b, window, Scalar(o), |units|) && |units2| == |units| && i < |units|
    ensures ArgsFit(MirrorBlock(b), MirrorWindowOf(window), Scalar(o), |units|)
    ensures SpecAt(units2, MirrorBlock(b), MirrorWindowOf(window), Scalar(o), i) ==
      SpecAt(units, b, window, Scalar(o), |units| - 1 - i).(units := units2[i],
                                                          weights := SpecAt(units, b, window, Scalar(o), i).weights)
  {
    var n := |units|;
    MirrorArgsFit(b, window, o, n);
    EntryMirror(b.activation, n, i);
    EntryMirror(b.useBias, n, i);
    EntryMirror(b.batchnorm, n, i);
    EntryMirror(b.dropout, n, i);
    if window.Some? {
      var w := window.value;
      EntryMirror(w.kernel, n, i);
      EntryMirror(w.strides, n, i);
      EntryMirror(w.padding, n, i);
      EntryMirror(w.dilation, n, i);
    }
  }

  lemma AsArgTuplesAt(units: Arg<int>, b: BlockArgs, window: Option<WindowArgs>, outputPadding: Arg<Option<int>>,
                      i: nat)
    requires AsArgTuples(units, b, window, outputPadding).Success? && i < LayerCount(units)
    ensures AsArgTuples(units, b, window, outputPadding).value[i] == SpecAt(AsList(units), b, window, outputPadding, i)
  {
  }

  /** `dec` lists the settings of `enc` in reverse order, with the units
      replaced by `units2` and the weight settings left in place. */
  predicate Mirrored(enc: seq<LayerSpec>, dec: seq<LayerSpec>, units2: seq<int>)
  {
    && |dec| == |enc| == |units2|
    && forall i | 0 <= i < |enc| :: dec[i] == enc[|enc| - 1 - i].(units := units2[i], weights := enc[i].weights)
  }

  /** The decoder-side broadcast: mirrored arguments and a new units list of
      the same length build the original layers in reverse order, with the
      new units and with the weight settings left in place. */
  lemma AsArgTuplesMirror(units: Arg<int>, units2: seq<int>, b: BlockArgs, window: Option<WindowArgs>,
                          o: Option<int>)
    requires AsArgTuples(units, b, window, Scalar(o)).Success?
    requires |units2| == LayerCount(units)
    ensures AsArgTuples(Many(units2), MirrorBlock(b), MirrorWindowOf(window), Scalar(o)).Success?
    ensures Mirrored(AsArgTuples(units, b, window, Scalar(o)).value,
                     AsArgTuples(Many(units2), MirrorBlock(b), MirrorWindowOf(window), Scalar(o)).value, units2)
  {
    MirrorArgsFit(b, window, o, LayerCount(units));
    SpecsMirrored(AsArgTuples(units, b, window, Scalar(o)).value,
                  AsArgTuples(Many(units2), MirrorBlock(b), MirrorWindowOf(window), Scalar(o)).value,
                  AsList(units), units2, b, window, o);
  }

  /** The pointwise argument behind `AsArgTuplesMirror`, on the settings
      lists themselves. */
  lemma SpecsMirrored(enc: seq<LayerSpec>, dec: seq<LayerSpec>, units: seq<int>, units2: seq<int>,
                      b: BlockArgs, window: Option<WindowArgs>, o: Option<int>)
    requires ArgsFit(b, window, Scalar(o), |units|) && |units2| == |units|
    requires |enc| == |units| && forall i | 0 <= i < |units| :: enc[i] == SpecAt(units, b, window, Scalar(o), i)
    requires ArgsFit(MirrorBlock(b), MirrorWindowOf(window), Scalar(o), |units|)
    requires |dec| == |units| &&
      forall i | 0 <= i < |units| :: dec[i] == SpecAt(units2, MirrorBlock(b), MirrorWindowOf(window), Scalar(o), i)
    ensures Mirrored(enc, dec, units2)
  {
    var n := |units|;
    forall i | 0 <= i < n
      ensures dec[i] == enc[n - 1 - i].(units := units2[i], weights := enc[i].weights)
    {
      SpecAtMirror(units, units2, b, window, o, i);
    }
  }

  /** The unit counts of a list of layer settings. */
  function UnitsOf(specs: seq<LayerSpec>): (r: seq<int>)
    ensures |r| == |specs|
  {
    seq(|specs|, i requires 0 <= i < |specs| => specs[i].units)
  }

  /** Layer i gets the i-th entry of the units list. */
  lemma AsArgTuplesUnits(units: Arg<int>, b: BlockArgs, window: Option<WindowArgs>, outputPadding: Arg<Option<int>>)
    requires AsArgTuples(units, b, window, outputPadding).Success?
    ensures UnitsOf(AsArgTuples(units, b, window, outputPadding).value) == AsList(units)
  {
    var r := AsArgTuples(units, b, window, outputPadding).value;
    forall i | 0 <= i < |r|
      ensures UnitsOf(r)[i] == AsList(units)[i]
    {
      AsArgTuplesAt(units, b, window, outputPadding, i);
    }
  }

  /** A mirrored list of settings carries the new units. */
  lemma MirroredUnits(enc: seq<LayerSpec>, dec: seq<LayerSpec>, units2: seq<int>)
    requires Mirrored(enc, dec, units2)
    ensures UnitsOf(dec) == units2
  {
    forall i | 0 <= i < |dec|
      ensures UnitsOf(dec)[i] == units2[i]
    {
      assert dec[i] == enc[|enc| - 1 - i].(units := units2[i], weights := enc[i].weights);
    }
  }
}

=== FILE: builders.dfy ===
/** The three layer-recipe builders of odin/networks/base_networks.py:
    `dense_network`, `conv_network` and `deconv_network`, together with the
    rank/shape reconciliation they share. Each returns the ordered list of
    layers it would hand to Keras, or the exception it would raise. */
module Builders {
  import opened Results
  import opened Layers
  import opened Args

  // ---------------------------------------------------------------------
  // _infer_rank_and_input_shape
  // ---------------------------------------------------------------------

  datatype RankShape = RankShape(rank: int, shape: Option<seq<int>>)

  /** A rank and an input shape (without the batch axis) agree when the
      shape has one axis per spatial dimension plus a channel axis. */
  predicate RankMatchesShape(rank: int, shape: seq<int>)
  {
    rank == |shape| - 1
  }

  function InferRank(rank: Option<int>, shape: Option<seq<int>>): (r: Result<RankShape>)
    ensures r.Success? <==>
      (rank.Some? || shape.Some?) && (rank.Some? && shape.Some? ==> RankMatchesShape(rank.value, shape.value))
    ensures rank.None? && shape.None? ==> r == Failure(MissingRankAndShape)
    ensures rank.Some? && shape.Some? && !RankMatchesShape(rank.value, shape.value) ==> r == Failure(RankShapeMismatch)
    ensures r.Success? ==> r.value.shape == shape
    ensures r.Success? && rank.Some? ==> r.value.rank == rank.value
    ensures r.Success? && shape.Some? ==> RankMatchesShape(r.value.rank, shape.value)
  {
    if rank.None? && shape.None? then Failure(MissingRankAndShape)
    else if rank.Some? then
      if shape.Some? && rank.value != |shape.value| - 1 then Failure(RankShapeMismatch)
      else Success(RankShape(rank.value, shape))
    else Success(RankShape(|shape.value| - 1, shape))
  }

  /** Feeding the reconciled pair back in changes nothing. */
  lemma InferRankIdempotent(rank: Option<int>, shape: Option<seq<int>>)
    requires InferRank(rank, shape).Success?
    ensures InferRank(Some(InferRank(rank, shape).value.rank), shape) == InferRank(rank, shape)
  {
  }

  // ---------------------------------------------------------------------
  // One hidden block
  // ---------------------------------------------------------------------

  /** The class a builder instantiates for its hidden layers: Dense, or a
      convolution of the given rank (transposed for deconv_network). */
  datatype MainKind = DenseMain | ConvMain(rank: int, transposed: bool)

  /** The linear main layer of block i, named "Layer%d" % i. Batch
      normalisation makes the bias redundant, so the bias is kept only when
      the block has no batch normalisation and asked for one. */
  function MainLayer(k: MainKind, i: nat, s: LayerSpec): (l: Layer)
    ensures l.Dense? <==> k.DenseMain?
    ensures l.Conv? <==> k.ConvMain?
    ensures l.units == s.units && l.weights == s.weights
    ensures l.name == Some(LayerName(i))
    ensures l.useBias <==> !s.batchnorm && s.useBias
    ensures l.Conv? ==> l.rank == k.rank && l.transposed == k.transposed && l.window == s.window
    ensures l.Dense? ==> l.activation == "linear"
  {
    match k
    case DenseMain => Dense(s.units, "linear", !s.batchnorm && s.useBias, Some(LayerName(i)), s.weights)
    case ConvMain(rank, transposed) =>
      Conv(rank, transposed, s.units, s.window, !s.batchnorm && s.useBias, Some(LayerName(i)), s.weights)
  }

  /** Block for one hidden layer: main layer, optional batch normalisation,
      activation, optional dropout. */
  function Block(main: Layer, s: LayerSpec): seq<Layer>
  {
    [main]
    + (if s.batchnorm then [BatchNorm] else [])
    + [Activation(s.activation)]
    + (if s.dropout > 0.0 then [Dropout(s.dropout)] else [])
  }

  /** The order inside one block. */
  lemma BlockLayout(main: Layer, s: LayerSpec)
    ensures |Block(main, s)| == 2 + (if s.batchnorm then 1 else 0) + (if s.dropout > 0.0 then 1 else 0)
    ensures Block(main, s)[0] == main
    ensures s.batchnorm ==> Block(main, s)[1] == BatchNorm
    ensures Block(main, s)[if s.batchnorm then 2 else 1] == Activation(s.activation)
    ensures s.dropout > 0.0 ==> Block(main, s)[|Block(main, s)| - 1] == Dropout(s.dropout)
  {
  }

  /** The blocks of hidden layers from, from + 1, ..., in order. */
  function Blocks(k: MainKind, specs: seq<LayerSpec>, from: nat): seq<Layer>
    decreases |specs|
  {
    if specs == [] then []
    else Block(MainLayer(k, from, specs[0]), specs[0]) + Blocks(k, specs[1..], from + 1)
  }

  // ---------------------------------------------------------------------
  // Reference descriptions of the hidden blocks
  // ---------------------------------------------------------------------

  /** The main layers the blocks must contain, one per spec, in order. */
  function Mains(k: MainKind, specs: seq<LayerSpec>, from: nat): (r: seq<Layer>)
    ensures |r| == |specs|
  {
    seq(|specs|, i requires 0 <= i < |specs| => MainLayer(k, from + i, specs[i]))
  }

  function Activations(specs: seq<LayerSpec>): (r: seq<Layer>)
    ensures |r| == |specs|
  {
    seq(|specs|, i requires 0 <= i < |specs| => Activation(specs[i].activation))
  }

  function BatchnormCount(specs: seq<LayerSpec>): nat
  {
    if specs == [] then 0 else (if specs[0].batchnorm then 1 else 0) + BatchnormCount(specs[1..])
  }

  function DropoutCount(specs: seq<LayerSpec>): nat
  {
    if specs == [] then 0 else (if specs[0].dropout > 0.0 then 1 else 0) + DropoutCount(specs[1..])
  }

  lemma MainsStep(k: MainKind, specs: seq<LayerSpec>, from: nat)
    requires specs != []
    ensures Mains(k, specs, from) == [MainLayer(k, from, specs[0])] + Mains(k, specs[1..], from + 1)
  {
    var lhs, rhs := Mains(k, specs, from), [MainLayer(k, from, specs[0])] + Mains(k, specs[1..], from + 1);
    assert |lhs| == |rhs|;
    forall i | 0 <= i < |lhs|
      ensures lhs[i] == rhs[i]
    {
      if i > 0 {
        assert rhs[i] == Mains(k, specs[1..], from + 1)[i - 1];
      }
    }
  }

  lemma ActivationsStep(specs: seq<LayerSpec>)
    requires specs != []
    ensures Activations(specs) == [Activation(specs[0].activation)] + Activations(specs[1..])
  {
    var lhs, rhs := Activations(specs), [Activation(specs[0].activation)] + Activations(specs[1..]);
    assert |lhs| == |rhs|;
    forall i | 0 <= i < |lhs|
      ensures lhs[i] == rhs[i]
    {
      if i > 0 {
        assert rhs[i] == Activations(specs[1..])[i - 1];
      }
    }
  }

  /** What the blocks of `specs` must contain, kind by kind: the expected
      main layers in order (as Dense or as convolutions, by class), one
      activation per layer in order, one batch normalisation per flagged
      layer, one dropout per layer with a positive rate, and nothing else. */
  function BlocksExpected(k: MainKind, specs: seq<LayerSpec>, from: nat): Census
  {
    Census([], 0, DropoutCount(specs),
           if k.DenseMain? then Mains(k, specs, from) else [],
           if k.ConvMain? then Mains(k, specs, from) else [],
           BatchnormCount(specs), Activations(specs), [])
  }

  /** The census of a main layer alone. */
  function MainCensus(k: MainKind, m: Layer): Census
  {
    NoLayers.(denses := if k.DenseMain? then [m] else [], convs := if k.ConvMain? then [m] else [])
  }

  lemma MainCensusOf(k: MainKind, i: nat, s: LayerSpec)
    ensures CensusOf([MainLayer(k, i, s)]) == MainCensus(k, MainLayer(k, i, s))
  {
    CensusSingle(MainLayer(k, i, s));
  }

  lemma PlusBlock(main: Census, bn: nat, act: Layer, drop: nat)
    requires main.inputs == [] && main.flattens == 0 && main.dropouts == 0 && main.batchnorms == 0
    requires main.activations == [] && main.reshapes == []
    ensures Plus(Plus(Plus(main, NoLayers.(batchnorms := bn)), NoLayers.(activations := [act])), NoLayers.(dropouts := drop))
         == Census([], 0, drop, main.denses, main.convs, bn, [act], [])
  {
    assert main.denses + [] + [] + [] == main.denses;
    assert main.convs + [] + [] + [] == main.convs;
  }

  lemma BatchNormCensusOf(c: bool)
    ensures CensusOf(if c then [BatchNorm] else []) == NoLayers.(batchnorms := Flag(c))
  {
    CensusOptional(c, BatchNorm);
  }

  lemma ActivationCensusOf(a: string)
    ensures CensusOf([Activation(a)]) == NoLayers.(activations := [Activation(a)])
  {
    CensusSingle(Activation(a));
  }

  lemma BlockCensus(k: MainKind, i: nat, s: LayerSpec)
    ensures CensusOf(Block(MainLayer(k, i, s), s)) ==
      Census([], 0, Flag(s.dropout > 0.0),
             if k.DenseMain? then [MainLayer(k, i, s)] else [],
             if k.ConvMain? then [MainLayer(k, i, s)] else [],
             Flag(s.batchnorm), [Activation(s.activation)], [])
  {
    var m := MainLayer(k, i, s);
    var p1, p2, p3, p4 := [m], (if s.batchnorm then [BatchNorm] else []),
      [Activation(s.activation)], (if s.dropout > 0.0 then [Dropout(s.dropout)] else []);
    CensusAppend4(p1, p2, p3, p4);
    MainCensusOf(k, i, s);
    BatchNormCensusOf(s.batchnorm);
    ActivationCensusOf(s.activation);
    DropoutCensusOf(s.dropout > 0.0, s.dropout);
    PlusBlock(MainCensus(k, m), Flag(s.batchnorm), Activation(s.activation), Flag(s.dropout > 0.0));
  }

  /** The expected census of the blocks, peeled one block at a time. */
  lemma ExpectedStep(k: MainKind, specs: seq<LayerSpec>, from: nat)
    requires specs != []
    ensures BlocksExpected(k, specs, from) ==
      Plus(Census([], 0, Flag(specs[0].dropout > 0.0),
                  if k.DenseMain? then [MainLayer(k, from, specs[0])] else [],
                  if k.ConvMain? then [MainLayer(k, from, specs[0])] else [],
                  Flag(specs[0].batchnorm), [Activation(specs[0].activation)], []),
           BlocksExpected(k, specs[1..], from + 1))
  {
    MainsStep(k, specs, from);
    ActivationsStep(specs);
  }

  /** The hidden blocks contain exactly what `BlocksExpected` describes. */
  lemma {:induction false} BlocksCensus(k: MainKind, specs: seq<LayerSpec>, from: nat)
    ensures CensusOf(Blocks(k, specs, from)) == BlocksExpected(k, specs, from)
    decreases |specs|
  {
    if specs != [] {
      var block := Block(MainLayer(k, from, specs[0]), specs[0]);
      CensusAppend(block, Blocks(k, specs[1..], from + 1));
      BlockCensus(k, from, specs[0]);
      BlocksCensus(k, specs[1..], from + 1);
      ExpectedStep(k, specs, from);
    }
  }

  /** The units (or filters) of a Dense or convolution layer. */
  function Width(l: Layer): int
  {
    match l
    case Dense(u, _, _, _, _) => u
    case Conv(_, _, u, _, _, _, _) => u
    case _ => 0
  }

  function Widths(ls: seq<Layer>): (r: seq<int>)
    ensures |r| == |ls|
  {
    seq(|ls|, i requires 0 <= i < |ls| => Width(ls[i]))
  }

  /** The main layers carry the units of their settings, in order. */
  lemma MainsWidths(k: MainKind, specs: seq<LayerSpec>, from: nat)
    ensures Widths(Mains(k, specs, from)) == UnitsOf(specs)
  {
  }

  /** Settings read backwards give activations read backwards. */
  lemma MirroredActivations(enc: seq<LayerSpec>, dec: seq<LayerSpec>, units2: seq<int>)
    requires Mirrored(enc, dec, units2)
    ensures Activations(dec) == Reverse(Activations(enc))
  {
    var a, b := Activations(dec), Reverse(Activations(enc));
    forall i | 0 <= i < |dec|
      ensures a[i] == b[i]
    {
      assert dec[i].activation == enc[|enc| - 1 - i].activation;
    }
  }

  /** The hidden layers of one recipe carry pairwise different names. */
  lemma MainNamesDistinct(k: MainKind, specs: seq<LayerSpec>, from: nat)
    ensures forall i, j | 0 <= i < j < |specs| :: Mains(k, specs, from)[i].name != Mains(k, specs, from)[j].name
  {
    var ms := Mains(k, specs, from);
    forall i, j | 0 <= i < j < |specs|
      ensures ms[i].name != ms[j].name
    {
      if ms[i].name == ms[j].name {
        LayerNameInjective(from + i, from + j);
      }
    }
  }

  /** Block i sits between the blocks before it and the blocks after it:
      the hidden layers are emitted strictly in index order. */
  lemma {:induction false} BlocksSplit(k: MainKind, specs: seq<LayerSpec>, from: nat, i: nat)
    requires i < |specs|
    ensures Blocks(k, specs, from) ==
      Blocks(k, specs[..i], from)
      + Block(MainLayer(k, from + i, specs[i]), specs[i])
      + Blocks(k, specs[i + 1..], from + i + 1)
  {
    var pre, post := specs[..i], specs[i + 1..];
    var x, y, z := Blocks(k, pre, from), Block(MainLayer(k, from + i, specs[i]), specs[i]), Blocks(k, post, from + i + 1);
    calc {
      Blocks(k, specs, from);
      { assert specs == pre + ([specs[i]] + post); }
      Blocks(k, pre + ([specs[i]] + post), from);
      { BlocksAppend(k, pre, [specs[i]] + post, from); }
      x + Blocks(k, [specs[i]] + post, from + i);
      { BlocksCons(k, specs[i], post, from + i); }
      x + (y + z);
      { Associative(x, y, z); }
      x + y + z;
    }
  }

  lemma BlocksCons(k: MainKind, s: LayerSpec, rest: seq<LayerSpec>, from: nat)
    ensures Blocks(k, [s] + rest, from) == Block(MainLayer(k, from, s), s) + Blocks(k, rest, from + 1)
  {
    assert ([s] + rest)[0] == s;
    assert ([s] + rest)[1..] == rest;
  }

  lemma Associative(x: seq<Layer>, y: seq<Layer>, z: seq<Layer>)
    ensures x + (y + z) == (x + y) + z
  {
  }

  /** Building the blocks of two spec lists one after the other, the second
      numbered on from where the first stopped, builds the blocks of the
      joined list. */
  lemma {:induction false} BlocksAppend(k: MainKind, a: seq<LayerSpec>, b: seq<LayerSpec>, from: nat)
    ensures Blocks(k, a + b, from) == Blocks(k, a, from) + Blocks(k, b, from + |a|)
    decreases |a|
  {
    if a == [] {
      assert a + b == b;
    } else {
      var rest := a[1..];
      var h := Block(MainLayer(k, from, a[0]), a[0]);
      calc {
        Blocks(k, a + b, from);
        { assert (a + b)[0] == a[0]; assert (a + b)[1..] == rest + b; }
        h + Blocks(k, rest + b, from + 1);
        { BlocksAppend(k, rest, b, from + 1); }
        h + (Blocks(k, rest, from + 1) + Blocks(k, b, from + |a|));
        { Associative(h, Blocks(k, rest, from + 1), Blocks(k, b, from + |a|)); }
        (h + Blocks(k, rest, from + 1)) + Blocks(k, b, from + |a|);
        Blocks(k, a, from) + Blocks(k, b, from + |a|);
      }
    }
  }

  // ---------------------------------------------------------------------
  // Prefixes and projection tail
  // ---------------------------------------------------------------------

  /** `dense_network`'s prefix: input layer when a shape is given, then
      Flatten when asked, then input dropout for any positive rate. */
  function DensePrefix(shape: Option<seq<int>>, flattenInputs: bool, inputDropout: real): (p: seq<Layer>)
    ensures |p| == (if shape.Some? then 1 else 0) + (if flattenInputs then 1 else 0) + (if inputDropout > 0.0 then 1 else 0)
  {
    (if shape.Some? then [InputLayer(shape.value)] else [])
    + (if flattenInputs then [Flatten] else [])
    + (if inputDropout > 0.0 then [Dropout(inputDropout)] else [])
  }

  /** The convolution builders' prefix: input layer when a shape is given,
      then input dropout only for a rate strictly between 0 and 1. */
  function ConvPrefix(shape: Option<seq<int>>, inputDropout: real): (p: seq<Layer>)
    ensures |p| == (if shape.Some? then 1 else 0) + (if 0.0 < inputDropout < 1.0 then 1 else 0)
  {
    (if shape.Some? then [InputLayer(shape.value)] else [])
    + (if 0.0 < inputDropout < 1.0 then [Dropout(inputDropout)] else [])
  }

  /** The `projection` argument: None, a bool, or a number. */
  datatype Projection = NoProjection | FlagProjection(on: bool) | SizeProjection(size: real)

  /** Python's `int(x)`: truncation toward zero. */
  function Trunc(x: real): int
  {
    if x >= 0.0 then x.Floor else -((-x).Floor)
  }

  /** `int(x)` rounds toward zero: it is within one of x, on x's side of zero. */
  lemma TruncTowardZero(x: real)
    ensures Trunc(x) as real <= x < Trunc(x) as real + 1.0 || Trunc(x) as real - 1.0 < x <= Trunc(x) as real
    ensures 0.0 <= x ==> 0 <= Trunc(x) && Trunc(x) as real <= x < Trunc(x) as real + 1.0
    ensures x <= 0.0 ==> Trunc(x) <= 0 && Trunc(x) as real - 1.0 < x <= Trunc(x) as real
  {
  }

  lemma TruncIntegral(n: int)
    ensures Trunc(n as real) == n
  {
  }

  function ProjectionTail(p: Projection): (t: seq<Layer>)
    ensures p.NoProjection? || p == FlagProjection(false) <==> t == []
    ensures p == FlagProjection(true) ==> t == [Flatten]
    ensures p.SizeProjection? ==> |t| == 2 && t[0] == Flatten && t[1].Dense?
    ensures p.SizeProjection? ==> t[1].units == Trunc(p.size) && t[1].useBias && t[1].activation == "linear"
  {
    match p
    case NoProjection => []
    case FlagProjection(on) => if on then [Flatten] else []
    case SizeProjection(x) => [Flatten, Dense(Trunc(x), "linear", true, None, KerasDefaultWeights)]
  }

  // ---------------------------------------------------------------------
  // The builders
  // ---------------------------------------------------------------------

  function DenseNetwork(units: Arg<int>, b: BlockArgs, flattenInputs: bool, inputDropout: real,
                        inputShape: Option<seq<int>>): (r: Result<seq<Layer>>)
    ensures r.Success? <==> BlockArgsFit(b, LayerCount(units))
    ensures r.Failure? ==> r.error == ArgLengthMismatch
  {
    var specs :- AsArgTuples(units, b, None, Scalar(None));
    Success(DensePrefix(inputShape, flattenInputs, inputDropout) + Blocks(DenseMain, specs, 0))
  }

  /** The convolution class `conv_network` picks for a rank; ranks outside
      1..3 leave `layer_type` unassigned. */
  function ConvClass(rank: int): Option<MainKind>
  {
    if 1 <= rank <= 3 then Some(ConvMain(rank, false)) else None
  }

  /** The class `deconv_network` picks: rank 3 is rejected outright. */
  function DeconvClass(rank: int): Result<Option<MainKind>>
  {
    if rank == 3 then Failure(UnsupportedRank)
    else if 1 <= rank <= 2 then Success(Some(ConvMain(rank, true)))
    else Success(None)
  }

  /** The hidden blocks once the class is known; without a class the loop
      body (and its unbound name) is reached only if there are layers. */
  function ClassBlocks(k: Option<MainKind>, specs: seq<LayerSpec>): (r: Result<seq<Layer>>)
    ensures r.Success? <==> k.Some? || specs == []
    ensures r.Failure? ==> r.error == UnboundLayerType
  {
    match k
    case Some(kind) => Success(Blocks(kind, specs, 0))
    case None => if specs == [] then Success([]) else Failure(UnboundLayerType)
  }

  function ConvNetwork(units: Arg<int>, rank: Option<int>, inputShape: Option<seq<int>>, w: WindowArgs,
                       b: BlockArgs, inputDropout: real, projection: Projection): (r: Result<seq<Layer>>)
    ensures r.Success? <==>
      && InferRank(rank, inputShape).Success?
      && AsArgTuples(units, b, Some(w), Scalar(None)).Success?
      && (1 <= InferRank(rank, inputShape).value.rank <= 3 || LayerCount(units) == 0)
    ensures InferRank(rank, inputShape).Failure? ==> r == Failure(InferRank(rank, inputShape).error)
    ensures InferRank(rank, inputShape).Success? && AsArgTuples(units, b, Some(w), Scalar(None)).Failure? ==>
      r == Failure(ArgLengthMismatch)
    ensures r == Failure(UnboundLayerType) <==>
      && InferRank(rank, inputShape).Success?
      && AsArgTuples(units, b, Some(w), Scalar(None)).Success?
      && !(1 <= InferRank(rank, inputShape).value.rank <= 3)
      && LayerCount(units) > 0
  {
    var rs :- InferRank(rank, inputShape);
    var specs :- AsArgTuples(units, b, Some(w), Scalar(None));
    var blocks :- ClassBlocks(ConvClass(rs.rank), specs);
    Success(ConvPrefix(rs.shape, inputDropout) + blocks + ProjectionTail(projection))
  }

  function DeconvNetwork(units: Arg<int>, rank: Option<int>, inputShape: Option<seq<int>>, w: WindowArgs,
                         outputPadding: Arg<Option<int>>, b: BlockArgs, inputDropout: real,
                         projection: Projection): (r: Result<seq<Layer>>)
    ensures r.Success? <==>
      && InferRank(rank, inputShape).Success?
      && AsArgTuples(units, b, Some(w), outputPadding).Success?
      && (1 <= InferRank(rank, inputShape).value.rank <= 2 || (LayerCount(units) == 0 && InferRank(rank, inputShape).value.rank != 3))
    ensures r == Failure(UnsupportedRank) <==>
      && InferRank(rank, inputShape).Success?
      && AsArgTuples(units, b, Some(w), outputPadding).Success?
      && InferRank(rank, inputShape).value.rank == 3
    ensures InferRank(rank, inputShape).Failure? ==> r == Failure(InferRank(rank, inputShape).error)
  {
    var rs :- InferRank(rank, inputShape);
    var specs :- AsArgTuples(units, b, Some(w), outputPadding);
    var kind :- DeconvClass(rs.rank);
    var blocks :- ClassBlocks(kind, specs);
    Success(ConvPrefix(rs.shape, inputDropout) + blocks + ProjectionTail(projection))
  }

  /** The other ways `deconv_network` fails: settings that do not broadcast,
      and a rank outside 1..3 that leaves the layer class unbound when the
      loop has layers to build. */
  lemma DeconvNetworkErrors(units: Arg<int>, rank: Option<int>, inputShape: Option<seq<int>>, w: WindowArgs,
                            outputPadding: Arg<Option<int>>, b: BlockArgs, inputDropout: real, projection: Projection)
    ensures var r := DeconvNetwork(units, rank, inputShape, w, outputPadding, b, inputDropout, projection);
      && (InferRank(rank, inputShape).Success? && AsArgTuples(units, b, Some(w), outputPadding).Failure? ==>
            r == Failure(ArgLengthMismatch))
      && (r == Failure(UnboundLayerType) <==>
            && InferRank(rank, inputShape).Success?
            && AsArgTuples(units, b, Some(w), outputPadding).Success?
            && !(1 <= InferRank(rank, inputShape).value.rank <= 3)
            && LayerCount(units) > 0)
  {
  }

  // ---------------------------------------------------------------------
  // Layouts of whole recipes
  // ---------------------------------------------------------------------

  function InputCensus(shape: Option<seq<int>>): seq<Layer>
  {
    if shape.Some? then [InputLayer(shape.value)] else []
  }

  function Flag(c: bool): nat
  {
    if c then 1 else 0
  }

  lemma InputCensusOf(shape: Option<seq<int>>)
    ensures CensusOf(InputCensus(shape)) == NoLayers.(inputs := InputCensus(shape))
  {
    if shape.Some? { CensusSingle(InputLayer(shape.value)); }
  }

  lemma DropoutCensusOf(c: bool, rate: real)
    ensures CensusOf(if c then [Dropout(rate)] else []) == NoLayers.(dropouts := Flag(c))
  {
    CensusOptional(c, Dropout(rate));
  }

  lemma FlattenCensusOf(c: bool)
    ensures CensusOf(if c then [Flatten] else []) == NoLayers.(flattens := Flag(c))
  {
    CensusOptional(c, Flatten);
  }

  lemma DensePrefixCensus(shape: Option<seq<int>>, flattenInputs: bool, inputDropout: real)
    ensures CensusOf(DensePrefix(shape, flattenInputs, inputDropout)) ==
      NoLayers.(inputs := InputCensus(shape), flattens := Flag(flattenInputs), dropouts := Flag(inputDropout > 0.0))
  {
    var a, b, c := InputCensus(shape),
      (if flattenInputs then [Flatten] else []), (if inputDropout > 0.0 then [Dropout(inputDropout)] else []);
    calc {
      CensusOf(DensePrefix(shape, flattenInputs, inputDropout));
      CensusOf(a + b + c);
    == { CensusAppend3(a, b, c); }
      Plus(Plus(CensusOf(a), CensusOf(b)), CensusOf(c));
    == { InputCensusOf(shape); FlattenCensusOf(flattenInputs); DropoutCensusOf(inputDropout > 0.0, inputDropout); }
      Plus(Plus(NoLayers.(inputs := a), NoLayers.(flattens := Flag(flattenInputs))),
           NoLayers.(dropouts := Flag(inputDropout > 0.0)));
    == { PlusFields(a, Flag(flattenInputs), Flag(inputDropout > 0.0)); }
      NoLayers.(inputs := a, flattens := Flag(flattenInputs), dropouts := Flag(inputDropout > 0.0));
    }
  }

  lemma ConvPrefixCensus(shape: Option<seq<int>>, inputDropout: real)
    ensures CensusOf(ConvPrefix(shape, inputDropout)) ==
      NoLayers.(inputs := InputCensus(shape), dropouts := Flag(0.0 < inputDropout < 1.0))
  {
    var a, b := InputCensus(shape), (if 0.0 < inputDropout < 1.0 then [Dropout(inputDropout)] else []);
    var d := Flag(0.0 < inputDropout < 1.0);
    calc {
      CensusOf(ConvPrefix(shape, inputDropout));
      CensusOf(a + b);
    == { CensusAppend(a, b); }
      Plus(CensusOf(a), CensusOf(b));
    == { InputCensusOf(shape); DropoutCensusOf(0.0 < inputDropout < 1.0, inputDropout); }
      Plus(NoLayers.(inputs := a), NoLayers.(dropouts := d));
    == { PlusInputsDropouts(a, d); }
      NoLayers.(inputs := a, dropouts := d);
    }
  }

  /** The Dense layer a numeric projection adds, if any. */
  function ProjectionDense(p: Projection): seq<Layer>
  {
    if p.SizeProjection? then [Dense(Trunc(p.size), "linear", true, None, KerasDefaultWeights)] else []
  }

  function ProjectionFlattens(p: Projection): nat
  {
    Flag(p == FlagProjection(true) || p.SizeProjection?)
  }

  lemma TailCensus(p: Projection)
    ensures CensusOf(ProjectionTail(p)) ==
      NoLayers.(flattens := ProjectionFlattens(p), denses := ProjectionDense(p))
  {
    match p
    case NoProjection =>
    case FlagProjection(on) => if on { CensusSingle(Flatten); }
    case SizeProjection(x) =>
      var d := Dense(Trunc(x), "linear", true, None, KerasDefaultWeights);
      assert ProjectionTail(p) == [Flatten] + [d];
      FlattenDenseCensus(d);
  }

  lemma FlattenDenseCensus(d: Layer)
    requires d.Dense?
    ensures CensusOf([Flatten] + [d]) == NoLayers.(flattens := 1, denses := [d])
  {
    calc {
      CensusOf([Flatten] + [d]);
    == { CensusAppend([Flatten], [d]); }
      Plus(CensusOf([Flatten]), CensusOf([d]));
    == { CensusSingle(Flatten); CensusSingle(d); }
      Plus(NoLayers.(flattens := 1), NoLayers.(denses := [d]));
    == { assert [] + [d] == [d]; }
      NoLayers.(flattens := 1, denses := [d]);
    }
  }

  lemma PlusDense(pre: Census, blocks: Census)
    requires pre == NoLayers.(inputs := pre.inputs, flattens := pre.flattens, dropouts := pre.dropouts)
    requires blocks.inputs == [] && blocks.flattens == 0 && blocks.convs == [] && blocks.reshapes == []
    ensures Plus(pre, blocks) ==
      Census(pre.inputs, pre.flattens, pre.dropouts + blocks.dropouts, blocks.denses, [],
             blocks.batchnorms, blocks.activations, [])
  {
    assert pre.inputs + [] == pre.inputs;
  }

  /** `dense_network`: the recipe holds the optional input layer, Flatten
      only when asked, the input dropout plus one dropout per positive rate,
      one Dense per unit entry (the expected ones, in order), one activation
      per layer, one batch normalisation per flagged layer, and nothing else. */
  lemma DenseNetworkCensus(units: Arg<int>, b: BlockArgs, flattenInputs: bool, inputDropout: real,
                           inputShape: Option<seq<int>>)
    requires DenseNetwork(units, b, flattenInputs, inputDropout, inputShape).Success?
    ensures var specs := AsArgTuples(units, b, None, Scalar(None)).value;
      CensusOf(DenseNetwork(units, b, flattenInputs, inputDropout, inputShape).value) ==
      Census(InputCensus(inputShape), Flag(flattenInputs), Flag(inputDropout > 0.0) + DropoutCount(specs),
             Mains(DenseMain, specs, 0), [], BatchnormCount(specs), Activations(specs), [])
  {
    var specs := AsArgTuples(units, b, None, Scalar(None)).value;
    var pre, blocks := DensePrefix(inputShape, flattenInputs, inputDropout), Blocks(DenseMain, specs, 0);
    var preCensus := NoLayers.(inputs := InputCensus(inputShape), flattens := Flag(flattenInputs),
                               dropouts := Flag(inputDropout > 0.0));
    calc {
      CensusOf(DenseNetwork(units, b, flattenInputs, inputDropout, inputShape).value);
      CensusOf(pre + blocks);
    == { CensusAppend(pre, blocks); }
      Plus(CensusOf(pre), CensusOf(blocks));
    == { DensePrefixCensus(inputShape, flattenInputs, inputDropout); BlocksCensus(DenseMain, specs, 0); }
      Plus(preCensus, BlocksExpected(DenseMain, specs, 0));
    == { PlusDense(preCensus, BlocksExpected(DenseMain, specs, 0)); }
      Census(InputCensus(inputShape), Flag(flattenInputs), Flag(inputDropout > 0.0) + DropoutCount(specs),
             Mains(DenseMain, specs, 0), [], BatchnormCount(specs), Activations(specs), []);
    }
  }

  /** The order inside `dense_network`'s prefix. */
  lemma DensePrefixOrder(shape: Option<seq<int>>, flattenInputs: bool, inputDropout: real)
    ensures var p := DensePrefix(shape, flattenInputs, inputDropout);
      && (shape.Some? ==> p[0] == InputLayer(shape.value))
      && (flattenInputs ==> p[Flag(shape.Some?)] == Flatten)
      && (inputDropout > 0.0 ==> p[|p| - 1] == Dropout(inputDropout))
  {
  }

  lemma FirstBlock(k: MainKind, specs: seq<LayerSpec>)
    requires specs != []
    ensures Blocks(k, specs, 0) != [] && Blocks(k, specs, 0)[0] == MainLayer(k, 0, specs[0])
  {
    BlockLayout(MainLayer(k, 0, specs[0]), specs[0]);
  }

  /** `dense_network`: the input layer, Flatten and the input dropout come
      first and in that order, and the first hidden block follows them. */
  lemma DenseNetworkPrefix(units: Arg<int>, b: BlockArgs, flattenInputs: bool, inputDropout: real,
                           inputShape: Option<seq<int>>)
    requires DenseNetwork(units, b, flattenInputs, inputDropout, inputShape).Success?
    ensures var r := DenseNetwork(units, b, flattenInputs, inputDropout, inputShape).value;
            var specs := AsArgTuples(units, b, None, Scalar(None)).value;
            var p := |DensePrefix(inputShape, flattenInputs, inputDropout)|;
      && p <= |r|
      && (inputShape.Some? ==> r[0] == InputLayer(inputShape.value))
      && (flattenInputs ==> r[Flag(inputShape.Some?)] == Flatten)
      && (inputDropout > 0.0 ==> r[p - 1] == Dropout(inputDropout))
      && (specs != [] ==> p < |r| && r[p] == MainLayer(DenseMain, 0, specs[0]))
  {
    var specs := AsArgTuples(units, b, None, Scalar(None)).value;
    var pre, blocks := DensePrefix(inputShape, flattenInputs, inputDropout), Blocks(DenseMain, specs, 0);
    assert DenseNetwork(units, b, flattenInputs, inputDropout, inputShape).value == pre + blocks;
    DensePrefixOrder(inputShape, flattenInputs, inputDropout);
    if specs != [] {
      FirstBlock(DenseMain, specs);
    }
  }

  lemma PlusRecipe(inputs: seq<Layer>, dropIn: nat, blocks: Census, flattens: nat, denses: seq<Layer>)
    requires blocks.inputs == [] && blocks.flattens == 0 && blocks.denses == [] && blocks.reshapes == []
    ensures Plus(Plus(NoLayers.(inputs := inputs, dropouts := dropIn), blocks), NoLayers.(flattens := flattens, denses := denses)) ==
      Census(inputs, flattens, dropIn + blocks.dropouts, denses, blocks.convs, blocks.batchnorms, blocks.activations, [])
  {
    assert inputs + [] + [] == inputs;
    assert [] + blocks.convs + [] == blocks.convs;
    assert [] + blocks.activations + [] == blocks.activations;
    assert [] + [] + denses == denses;
  }

  /** The census shared by the two convolution builders, given the class
      they chose: prefix, hidden blocks, projection tail. */
  lemma ConvRecipeCensus(shape: Option<seq<int>>, inputDropout: real, k: MainKind, specs: seq<LayerSpec>,
                         projection: Projection)
    requires k.ConvMain?
    ensures CensusOf(ConvPrefix(shape, inputDropout) + Blocks(k, specs, 0) + ProjectionTail(projection)) ==
      Census(InputCensus(shape), ProjectionFlattens(projection),
             Flag(0.0 < inputDropout < 1.0) + DropoutCount(specs), ProjectionDense(projection),
             Mains(k, specs, 0), BatchnormCount(specs), Activations(specs), [])
  {
    var pre, blocks, tail := ConvPrefix(shape, inputDropout), Blocks(k, specs, 0), ProjectionTail(projection);
    var drop := Flag(0.0 < inputDropout < 1.0);
    var preCensus := NoLayers.(inputs := InputCensus(shape), dropouts := drop);
    var flattens, denses := ProjectionFlattens(projection), ProjectionDense(projection);
    var tailCensus := NoLayers.(flattens := flattens, denses := denses);
    var expected := BlocksExpected(k, specs, 0);
    calc {
      CensusOf(pre + blocks + tail);
    == { CensusAppend3(pre, blocks, tail); }
      Plus(Plus(CensusOf(pre), CensusOf(blocks)), CensusOf(tail));
    == { ConvPrefixCensus(shape, inputDropout); BlocksCensus(k, specs, 0); TailCensus(projection); }
      Plus(Plus(preCensus, expected), tailCensus);
    == { PlusRecipe(InputCensus(shape), drop, expected, flattens, denses); }
      Census(InputCensus(shape), flattens, drop + expected.dropouts, denses,
             expected.convs, expected.batchnorms, expected.activations, []);
    == { assert expected.convs == Mains(k, specs, 0); }
      Census(InputCensus(shape), ProjectionFlattens(projection),
             Flag(0.0 < inputDropout < 1.0) + DropoutCount(specs), ProjectionDense(projection),
             Mains(k, specs, 0), BatchnormCount(specs), Activations(specs), []);
    }
  }

  /** A successful `conv_network` is prefix, blocks of the reconciled rank, tail. */
  lemma ConvNetworkParts(units: Arg<int>, rank: Option<int>, inputShape: Option<seq<int>>, w: WindowArgs,
                         b: BlockArgs, inputDropout: real, projection: Projection)
    requires ConvNetwork(units, rank, inputShape, w, b, inputDropout, projection).Success?
    ensures ConvNetwork(units, rank, inputShape, w, b, inputDropout, projection).value ==
      ConvPrefix(inputShape, inputDropout)
      + Blocks(ConvMain(InferRank(rank, inputShape).value.rank, false), AsArgTuples(units, b, Some(w), Scalar(None)).value, 0)
      + ProjectionTail(projection)
  {
    var rs := InferRank(rank, inputShape).value;
    var specs := AsArgTuples(units, b, Some(w), Scalar(None)).value;
    if !(1 <= rs.rank <= 3) {
      assert Blocks(ConvMain(rs.rank, false), specs, 0) == [];
    }
  }

  /** A successful `deconv_network` is prefix, transposed blocks, tail. */
  lemma DeconvNetworkParts(units: Arg<int>, rank: Option<int>, inputShape: Option<seq<int>>, w: WindowArgs,
                           outputPadding: Arg<Option<int>>, b: BlockArgs, inputDropout: real, projection: Projection)
    requires DeconvNetwork(units, rank, inputShape, w, outputPadding, b, inputDropout, projection).Success?
    ensures InferRank(rank, inputShape).value.rank != 3
    ensures DeconvNetwork(units, rank, inputShape, w, outputPadding, b, inputDropout, projection).value ==
      ConvPrefix(inputShape, inputDropout)
      + Blocks(ConvMain(InferRank(rank, inputShape).value.rank, true), AsArgTuples(units, b, Some(w), outputPadding).value, 0)
      + ProjectionTail(projection)
  {
    var rs := InferRank(rank, inputShape).value;
    var specs := AsArgTuples(units, b, Some(w), outputPadding).value;
    if !(1 <= rs.rank <= 2) {
      assert Blocks(ConvMain(rs.rank, true), specs, 0) == [];
    }
  }

  lemma EndsWith(a: seq<Layer>, t: seq<Layer>)
    ensures |t| <= |a + t| && (a + t)[|a + t| - |t|..] == t
  {
  }

  /** `conv_network`: one convolution of the reconciled rank per unit entry
      (the expected ones, in order), the projection's Flatten and Dense,
      the input dropout only for a rate in (0, 1), the same per-layer
      activations, normalisations and dropouts as the dense recipe, and the
      projection tail last. */
  lemma ConvNetworkLayout(units: Arg<int>, rank: Option<int>, inputShape: Option<seq<int>>, w: WindowArgs,
                          b: BlockArgs, inputDropout: real, projection: Projection)
    requires ConvNetwork(units, rank, inputShape, w, b, inputDropout, projection).Success?
    ensures var r := ConvNetwork(units, rank, inputShape, w, b, inputDropout, projection).value;
            var specs := AsArgTuples(units, b, Some(w), Scalar(None)).value;
            var k := ConvMain(InferRank(rank, inputShape).value.rank, false);
      && CensusOf(r) ==
           Census(InputCensus(inputShape), ProjectionFlattens(projection),
                  Flag(0.0 < inputDropout < 1.0) + DropoutCount(specs), ProjectionDense(projection),
                  Mains(k, specs, 0), BatchnormCount(specs), Activations(specs), [])
      && |ProjectionTail(projection)| <= |r|
      && r[|r| - |ProjectionTail(projection)|..] == ProjectionTail(projection)
  {
    var specs := AsArgTuples(units, b, Some(w), Scalar(None)).value;
    var k := ConvMain(InferRank(rank, inputShape).value.rank, false);
    ConvNetworkParts(units, rank, inputShape, w, b, inputDropout, projection);
    ConvRecipeCensus(inputShape, inputDropout, k, specs, projection);
    EndsWith(ConvPrefix(inputShape, inputDropout) + Blocks(k, specs, 0), ProjectionTail(projection));
  }

  /** `deconv_network`: the same layout with transposed convolutions, whose
      rank is never 3. */
  lemma DeconvNetworkLayout(units: Arg<int>, rank: Option<int>, inputShape: Option<seq<int>>, w: WindowArgs,
                            outputPadding: Arg<Option<int>>, b: BlockArgs, inputDropout: real, projection: Projection)
    requires DeconvNetwork(units, rank, inputShape, w, outputPadding, b, inputDropout, projection).Success?
    ensures var r := DeconvNetwork(units, rank, inputShape, w, outputPadding, b, inputDropout, projection).value;
            var specs := AsArgTuples(units, b, Some(w), outputPadding).value;
            var k := ConvMain(InferRank(rank, inputShape).value.rank, true);
      && InferRank(rank, inputShape).value.rank != 3
      && CensusOf(r) ==
           Census(InputCensus(inputShape), ProjectionFlattens(projection),
                  Flag(0.0 < inputDropout < 1.0) + DropoutCount(specs), ProjectionDense(projection),
                  Mains(k, specs, 0), BatchnormCount(specs), Activations(specs), [])
      && |ProjectionTail(projection)| <= |r|
      && r[|r| - |ProjectionTail(projection)|..] == ProjectionTail(projection)
  {
    var specs := AsArgTuples(units, b, Some(w), outputPadding).value;
    var k := ConvMain(InferRank(rank, inputShape).value.rank, true);
    DeconvNetworkParts(units, rank, inputShape, w, outputPadding, b, inputDropout, projection);
    ConvRecipeCensus(inputShape, inputDropout, k, specs, projection);
    EndsWith(ConvPrefix(inputShape, inputDropout) + Blocks(k, specs, 0), ProjectionTail(projection));
  }

  /** The main layers and activations of a transposed-convolution recipe. */
  lemma DeconvNetworkMains(units: Arg<int>, rank: Option<int>, w: WindowArgs, b: BlockArgs, inputDropout: real)
    requires DeconvNetwork(units, rank, None, w, Scalar(None), b, inputDropout, NoProjection).Success?
    ensures var r := DeconvNetwork(units, rank, None, w, Scalar(None), b, inputDropout, NoProjection).value;
            var specs := AsArgTuples(units, b, Some(w), Scalar(None)).value;
      && CensusOf(r).convs == Mains(ConvMain(InferRank(rank, None).value.rank, true), specs, 0)
      && CensusOf(r).activations == Activations(specs)
  {
    DeconvNetworkLayout(units, rank, None, w, Scalar(None), b, inputDropout, NoProjection);
  }
}

=== FILE: config.dfy ===
/** `NetworkConfig`: a serialisable description of an encoder, the
    normalisation its constructor applies, and the three factories that turn
    it into layers: `create_network` (the encoder), `create_decoder` (its
    mirror image) and `create_autoencoder` (both). */
module Config {
  import opened Results
  import opened Layers
  import opened Args
  import opened Builders

  // ---------------------------------------------------------------------
  // Network kinds
  // ---------------------------------------------------------------------

  datatype Kind = DeconvKind | ConvKind | DenseKind | LstmKind | GruKind | RnnKind

  /** The names `__post_init__` accepts, in the order it lists them. */
  const NetworkTypes: seq<string> := ["deconv", "conv", "dense", "lstm", "gru", "rnn"]

  function KindName(k: Kind): string
  {
    match k
    case DeconvKind => "deconv"
    case ConvKind => "conv"
    case DenseKind => "dense"
    case LstmKind => "lstm"
    case GruKind => "gru"
    case RnnKind => "rnn"
  }

  /** The `network` string read as a kind; None for a name outside the list. */
  function ParseKind(s: string): (r: Option<Kind>)
    ensures r.Some? <==> s in NetworkTypes
    ensures r.Some? ==> KindName(r.value) == s
  {
    if s == "deconv" then Some(DeconvKind)
    else if s == "conv" then Some(ConvKind)
    else if s == "dense" then Some(DenseKind)
    else if s == "lstm" then Some(LstmKind)
    else if s == "gru" then Some(GruKind)
    else if s == "rnn" then Some(RnnKind)
    else None
  }

  /** Every kind survives being written out and read back. */
  lemma ParseKindName(k: Kind)
    ensures ParseKind(KindName(k)) == Some(k)
  {
  }

  // ---------------------------------------------------------------------
  // The configuration record
  // ---------------------------------------------------------------------

  /** A normalised configuration: `units` is a list of ints, `network` a
      known kind. Window and block arguments stay scalar-or-list, exactly as
      the caller gave them. */
  datatype NetworkConfig = NetworkConfig(
    units: seq<int>,
    window: WindowArgs,
    block: BlockArgs,
    inputDropout: real,
    linearDecoder: bool,
    network: Kind,
    flattenInputs: bool,
    projection: Projection,
    inputShape: Option<seq<int>>,
    name: Option<string>)

  /** `NetworkConfig(...)` followed by `__post_init__`: a scalar `units`
      becomes a one-element list, every entry is truncated with `int()`, and
      an unknown `network` fails the assertion. */
  function NewConfig(units: Arg<real>, window: WindowArgs, block: BlockArgs, inputDropout: real,
                     linearDecoder: bool, network: string, flattenInputs: bool, projection: Projection,
                     inputShape: Option<seq<int>>, name: Option<string>): (r: Result<NetworkConfig>)
    ensures r.Success? <==> network in NetworkTypes
    ensures r.Failure? ==> r.error == UnknownNetwork
    ensures r.Success? ==> |r.value.units| == |AsList(units)|
    ensures r.Success? ==> forall i | 0 <= i < |AsList(units)| :: r.value.units[i] == Trunc(AsList(units)[i])
    ensures r.Success? ==> KindName(r.value.network) == network
    ensures r.Success? ==> r.value.window == window && r.value.block == block && r.value.projection == projection
    ensures r.Success? ==> r.value.inputShape == inputShape && r.value.name == name
  {
    var xs := AsList(units);
    var kind := ParseKind(network);
    if kind.None? then Failure(UnknownNetwork)
    else Success(NetworkConfig(seq(|xs|, i requires 0 <= i < |xs| => Trunc(xs[i])), window, block, inputDropout,
                               linearDecoder, kind.value, flattenInputs, projection, inputShape, name))
  }

  function AsReals(xs: seq<int>): (r: seq<real>)
    ensures |r| == |xs|
  {
    seq(|xs|, i requires 0 <= i < |xs| => xs[i] as real)
  }

  /** Normalising an already normalised configuration changes nothing: a
      copy re-runs `__post_init__` harmlessly. */
  lemma NewConfigIdempotent(cfg: NetworkConfig)
    ensures NewConfig(Many(AsReals(cfg.units)), cfg.window, cfg.block, cfg.inputDropout, cfg.linearDecoder,
                      KindName(cfg.network), cfg.flattenInputs, cfg.projection, cfg.inputShape, cfg.name)
            == Success(cfg)
  {
    var r := NewConfig(Many(AsReals(cfg.units)), cfg.window, cfg.block, cfg.inputDropout, cfg.linearDecoder,
                       KindName(cfg.network), cfg.flattenInputs, cfg.projection, cfg.inputShape, cfg.name);
    ParseKindName(cfg.network);
    forall i | 0 <= i < |cfg.units|
      ensures r.value.units[i] == cfg.units[i]
    {
      TruncIntegral(cfg.units[i]);
    }
    assert r.value.units == cfg.units;
  }

  // ---------------------------------------------------------------------
  // create_network
  // ---------------------------------------------------------------------

  /** What `create_network` returns: a named Sequential model, or the bare
      layer list when `sequential` is false. */
  datatype Network = SequentialNetwork(layers: seq<Layer>, name: Option<string>) | LayerList(layers: seq<Layer>)

  /** The recipe `create_network` hands to Keras for a kind, before wrapping. */
  function EncoderLayers(cfg: NetworkConfig, shape: Option<seq<int>>): Result<seq<Layer>>
  {
    match cfg.network
    case ConvKind =>
      ConvNetwork(Many(cfg.units), Some(2), shape, cfg.window, cfg.block, cfg.inputDropout, cfg.projection)
    case DenseKind =>
      DenseNetwork(Many(cfg.units), cfg.block, cfg.flattenInputs, cfg.inputDropout, shape)
    case DeconvKind =>
      DeconvNetwork(Many(cfg.units), Some(2), shape, cfg.window, Scalar(None), cfg.block, cfg.inputDropout, cfg.projection)
    case _ => Failure(NoEncoderForNetwork)
  }

  /** `create_network`: the configured name wins over the argument, the
      shape argument wins over the configured shape, and both convolution
      kinds are built with the builders' default rank 2. */
  function CreateNetwork(cfg: NetworkConfig, inputShape: Option<seq<int>>, sequential: bool,
                         name: Option<string>): (r: Result<Network>)
    ensures r == Failure(NoEncoderForNetwork) <==> cfg.network in {LstmKind, GruKind, RnnKind}
    ensures cfg.network == DenseKind ==> (r.Success? <==> BlockArgsFit(cfg.block, |cfg.units|))
    ensures cfg.network == ConvKind ==>
      (r.Success? <==>
        && (inputShape.Some? ==> |inputShape.value| == 3)
        && (inputShape.None? && cfg.inputShape.Some? ==> |cfg.inputShape.value| == 3)
        && ArgsFit(cfg.block, Some(cfg.window), Scalar(None), |cfg.units|))
    ensures cfg.network == DeconvKind ==>
      (r.Success? <==>
        && (inputShape.Some? ==> |inputShape.value| == 3)
        && (inputShape.None? && cfg.inputShape.Some? ==> |cfg.inputShape.value| == 3)
        && ArgsFit(cfg.block, Some(cfg.window), Scalar(None), |cfg.units|))
    ensures r.Success? ==> (r.value.SequentialNetwork? <==> sequential)
    ensures r.Success? && sequential ==> r.value.name == (if cfg.name.Some? then cfg.name else name)
  {
    var shape := if inputShape.None? then cfg.inputShape else inputShape;
    var layers :- EncoderLayers(cfg, shape);
    Success(if sequential then SequentialNetwork(layers, if cfg.name.Some? then cfg.name else name)
            else LayerList(layers))
  }

  /** A convolutional encoder is always two-dimensional: an input shape
      that is not (height, width, channels) is rejected. */
  lemma ConvEncoderNeedsImageShape(cfg: NetworkConfig, shape: seq<int>, sequential: bool, name: Option<string>)
    requires cfg.network == ConvKind && |shape| != 3
    ensures CreateNetwork(cfg, Some(shape), sequential, name) == Failure(RankShapeMismatch)
  {
  }

  /** Passing a shape is the same as configuring it. */
  lemma ShapeArgumentOverrides(cfg: NetworkConfig, shape: seq<int>, sequential: bool, name: Option<string>)
    ensures CreateNetwork(cfg, Some(shape), sequential, name) ==
            CreateNetwork(cfg.(inputShape := Some(shape)), None, sequential, name)
  {
  }

  /** A configured name makes the name argument irrelevant. */
  lemma ConfiguredNameWins(cfg: NetworkConfig, shape: Option<seq<int>>, sequential: bool, n1: Option<string>,
                           n2: Option<string>)
    requires cfg.name.Some?
    ensures CreateNetwork(cfg, shape, sequential, n1) == CreateNetwork(cfg, shape, sequential, n2)
  {
  }

  // ---------------------------------------------------------------------
  // create_decoder
  // ---------------------------------------------------------------------

  /** What the decoder reads off a built encoder through Keras' shape
      inference: the encoder's input shape and the output shape of each of
      its layers, all without the batch axis. */
  datatype EncoderView = EncoderView(inputShape: seq<int>, layerShapes: seq<seq<int>>)

  datatype Decoder = IdentityDecoder(latent: seq<int>, name: string) | SequentialDecoder(layers: seq<Layer>, name: string)

  /** `np.prod` of a shape. */
  function Product(s: seq<int>): int
  {
    if s == [] then 1 else s[0] * Product(s[1..])
  }

  /** Everything but the first element (`[1:]`, empty stays empty). */
  function Drop1<T>(s: seq<T>): (r: seq<T>)
    ensures |r| == if s == [] then 0 else |s| - 1
  {
    if s == [] then [] else s[1..]
  }

  /** The filters of the transposed layers: the encoder's units backwards
      without the innermost one, then the channels of the reconstruction. */
  function DecoderUnits(units: seq<int>, last: int): (r: seq<int>)
    ensures |r| == (if units == [] then 1 else |units|)
    ensures r[|r| - 1] == last
    ensures forall i | 0 <= i < |r| - 1 :: r[i] == units[|units| - 2 - i]
  {
    Drop1(Reverse(units)) + [last]
  }

  /** The layers a convolutional decoder starts with: the latent input, and
      for a numeric projection the Dense layers that undo it followed by a
      reshape to the encoder's last convolution shape. */
  function DecoderStart(cfg: NetworkConfig, latent: seq<int>, eshape: seq<int>): (r: Result<seq<Layer>>)
    ensures r.Success? <==> !cfg.projection.SizeProjection? || cfg.block.activation.Scalar?
    ensures r.Failure? ==> r.error == ActivationNotScalar
  {
    if !cfg.projection.SizeProjection? then Success([InputLayer(latent)])
    else if cfg.block.activation.Many? then Failure(ActivationNotScalar)
    else Success([InputLayer(latent),
                  Dense(Trunc(cfg.projection.size), "linear", true, None, KerasDefaultWeights),
                  Dense(Product(eshape), cfg.block.activation.x, true, None, KerasDefaultWeights),
                  Reshape(eshape)])
  }

  /** The decoder reads the latent code first; for a numeric projection it
      then undoes the projection with a linear Dense layer of the projected
      width, a Dense layer restoring the encoder's last convolution shape,
      and a reshape to that shape. */
  lemma DecoderStartLayers(cfg: NetworkConfig, latent: seq<int>, eshape: seq<int>)
    requires DecoderStart(cfg, latent, eshape).Success?
    ensures var r := DecoderStart(cfg, latent, eshape).value;
      && |r| >= 1 && r[0] == InputLayer(latent)
      && (!cfg.projection.SizeProjection? ==> r == [InputLayer(latent)])
      && (cfg.projection.SizeProjection? ==>
            r[1..] == [Dense(Trunc(cfg.projection.size), "linear", true, None, KerasDefaultWeights),
                       Dense(Product(eshape), cfg.block.activation.x, true, None, KerasDefaultWeights),
                       Reshape(eshape)])
  {
  }

  /** The transposed-convolution body of a convolutional decoder for an
      encoder input of shape `inputShape`: its last axis holds the channels. */
  function ConvDecoderBody(cfg: NetworkConfig, inputShape: seq<int>, nParam: int): Result<seq<Layer>>
    requires inputShape != []
  {
    DeconvNetwork(Many(DecoderUnits(cfg.units, inputShape[|inputShape| - 1] * nParam)), Some(DecoderRank(inputShape)),
                  None, MirrorWindow(cfg.window), Scalar(None), MirrorBlock(cfg.block), cfg.inputDropout, NoProjection)
  }

  /** The dense body of a dense decoder. */
  function DenseDecoderBody(cfg: NetworkConfig, latent: seq<int>): Result<seq<Layer>>
  {
    DenseNetwork(Many(Reverse(cfg.units)), MirrorBlock(cfg.block), cfg.flattenInputs, cfg.inputDropout, Some(latent))
  }

  /** The rank of the decoder's transposed convolutions. */
  function DecoderRank(inputShape: seq<int>): int
  {
    if |inputShape| == 2 then 1 else 2
  }

  /** The layers of a convolutional decoder around the outcome `body` of
      building its transposed body: start layers built for the shape of the
      encoder's last convolution (the third layer shape from the end), the
      body, and a reshape to the input shape. */
  function ConvDecoderLayers(cfg: NetworkConfig, enc: EncoderView, latent: seq<int>,
                             body: Result<seq<Layer>>): Result<seq<Layer>>
  {
    if |enc.layerShapes| < 3 then Failure(IndexOutOfRange)
    else
      var eshape := enc.layerShapes[|enc.layerShapes| - 3];
      var start :- DecoderStart(cfg, latent, eshape);
      var layers :- body;
      Success(start + layers + [Reshape(enc.inputShape)])
  }

  /** `create_decoder`. The input shape is read (and its channel count
      taken) before the linear-decoder shortcut, so an empty input shape
      fails even for a linear decoder. */
  function CreateDecoder(cfg: NetworkConfig, enc: EncoderView, latent: seq<int>, nParam: int,
                         name: Option<string>): (r: Result<Decoder>)
    ensures enc.inputShape == [] ==> r == Failure(IndexOutOfRange)
    ensures enc.inputShape != [] && cfg.linearDecoder ==> r == Success(IdentityDecoder(latent, name.GetOr("Decoder")))
    ensures enc.inputShape != [] && !cfg.linearDecoder && cfg.network !in {ConvKind, DenseKind} ==>
      r == Failure(NoDecoderForNetwork)
    ensures r.Success? ==> r.value.name == name.GetOr("Decoder")
    ensures r.Success? && !cfg.linearDecoder ==> r.value.SequentialDecoder?
  {
    var nm := name.GetOr("Decoder");
    if enc.inputShape == [] then Failure(IndexOutOfRange)
    else if cfg.linearDecoder then Success(IdentityDecoder(latent, nm))
    else match cfg.network
      case ConvKind =>
        var layers :- ConvDecoderLayers(cfg, enc, latent, ConvDecoderBody(cfg, enc.inputShape, nParam));
        Success(SequentialDecoder(layers, nm))
      case DenseKind =>
        var body :- DenseDecoderBody(cfg, latent);
        Success(SequentialDecoder(body, nm))
      case _ => Failure(NoDecoderForNetwork)
  }

  /** A convolutional decoder needs three layer shapes of its encoder, and
      when it is built it reads the latent code first and ends by
      reshaping to the encoder's input shape. */
  lemma ConvDecoderEnds(cfg: NetworkConfig, enc: EncoderView, latent: seq<int>, nParam: int, name: Option<string>)
    requires cfg.network == ConvKind && !cfg.linearDecoder && enc.inputShape != []
    ensures |enc.layerShapes| < 3 ==> CreateDecoder(cfg, enc, latent, nParam, name) == Failure(IndexOutOfRange)
    ensures var r := CreateDecoder(cfg, enc, latent, nParam, name);
      r.Success? ==>
      && r.value.SequentialDecoder?
      && |r.value.layers| >= 2
      && r.value.layers[0] == InputLayer(latent)
      && r.value.layers[|r.value.layers| - 1] == Reshape(enc.inputShape)
  {
    if |enc.layerShapes| >= 3 {
      var eshape := enc.layerShapes[|enc.layerShapes| - 3];
      var s := DecoderStart(cfg, latent, eshape);
      var b := ConvDecoderBody(cfg, enc.inputShape, nParam);
      if s.Success? && b.Success? {
        DecoderStartLayers(cfg, latent, eshape);
        var layers := s.value + b.value + [Reshape(enc.inputShape)];
        assert layers[0] == s.value[0];
      }
    }
  }

  /** A dense decoder mirrors its encoder: its Dense layers have the
      encoder's widths in reverse order, its activations are the encoder's
      in reverse order, and its only input layer reads the latent code. */
  lemma DenseDecoderMirrorsEncoder(cfg: NetworkConfig, shape: seq<int>, layerShapes: seq<seq<int>>,
                                   latent: seq<int>, nParam: int, name: Option<string>, encName: Option<string>)
    requires cfg.network == DenseKind && !cfg.linearDecoder && shape != []
    requires CreateNetwork(cfg, Some(shape), true, encName).Success?
    ensures CreateDecoder(cfg, EncoderView(shape, layerShapes), latent, nParam, name).Success?
    ensures var e := CensusOf(CreateNetwork(cfg, Some(shape), true, encName).value.layers);
            var d := CensusOf(CreateDecoder(cfg, EncoderView(shape, layerShapes), latent, nParam, name).value.layers);
      && Widths(d.denses) == Reverse(Widths(e.denses))
      && d.activations == Reverse(e.activations)
      && d.inputs == [InputLayer(latent)]
  {
    var units, b := cfg.units, cfg.block;
    AsArgTuplesMirror(Many(units), Reverse(units), b, None, None);
    var encSpecs := AsArgTuples(Many(units), b, None, Scalar(None)).value;
    var decSpecs := AsArgTuples(Many(Reverse(units)), MirrorBlock(b), None, Scalar(None)).value;
    DenseNetworkCensus(Many(units), b, cfg.flattenInputs, cfg.inputDropout, Some(shape));
    DenseNetworkCensus(Many(Reverse(units)), MirrorBlock(b), cfg.flattenInputs, cfg.inputDropout, Some(latent));
    MainsWidths(DenseMain, encSpecs, 0);
    MainsWidths(DenseMain, decSpecs, 0);
    AsArgTuplesUnits(Many(units), b, None, Scalar(None));
    MirroredUnits(encSpecs, decSpecs, Reverse(units));
    MirroredActivations(encSpecs, decSpecs, Reverse(units));
  }

  /** The start layers hold the latent input and no convolution or activation. */
  lemma DecoderStartCensus(cfg: NetworkConfig, latent: seq<int>, eshape: seq<int>)
    requires DecoderStart(cfg, latent, eshape).Success?
    ensures var c := CensusOf(DecoderStart(cfg, latent, eshape).value);
      c.inputs == [InputLayer(latent)] && c.convs == [] && c.activations == []
  {
    if cfg.projection.SizeProjection? {
      var d1 := Dense(Trunc(cfg.projection.size), "linear", true, None, KerasDefaultWeights);
      var d2 := Dense(Product(eshape), cfg.block.activation.x, true, None, KerasDefaultWeights);
      assert DecoderStart(cfg, latent, eshape).value == [InputLayer(latent)] + [d1] + [d2] + [Reshape(eshape)];
      ProjectionStartCensus(InputLayer(latent), d1, d2, Reshape(eshape));
    } else {
      CensusSingle(InputLayer(latent));
    }
  }

  lemma ProjectionStartCensus(i: Layer, d1: Layer, d2: Layer, r: Layer)
    requires i.InputLayer? && d1.Dense? && d2.Dense? && r.Reshape?
    ensures CensusOf([i] + [d1] + [d2] + [r]) == NoLayers.(inputs := [i], denses := [d1, d2], reshapes := [r])
  {
    calc {
      CensusOf([i] + [d1] + [d2] + [r]);
    == { CensusAppend4([i], [d1], [d2], [r]); }
      Plus(Plus(Plus(CensusOf([i]), CensusOf([d1])), CensusOf([d2])), CensusOf([r]));
    == { CensusSingle(i); CensusSingle(d1); CensusSingle(d2); CensusSingle(r); }
      Plus(Plus(Plus(NoLayers.(inputs := [i]), NoLayers.(denses := [d1])), NoLayers.(denses := [d2])),
           NoLayers.(reshapes := [r]));
    == { assert [i] + [] + [] + [] == [i];
         assert [] + [d1] + [d2] + [] == [d1, d2];
         assert [] + [] + [] + [r] == [r]; }
      NoLayers.(inputs := [i], denses := [d1, d2], reshapes := [r]);
    }
  }

  /** The census of a convolutional decoder: start layers, transposed body,
      final reshape. */
  lemma ConvDecoderCensus(start: seq<Layer>, body: seq<Layer>, shape: seq<int>)
    requires CensusOf(start).convs == [] && CensusOf(start).activations == []
    ensures CensusOf(start + body + [Reshape(shape)]).convs == CensusOf(body).convs
    ensures CensusOf(start + body + [Reshape(shape)]).activations == CensusOf(body).activations
  {
    CensusAppend3(start, body, [Reshape(shape)]);
    CensusSingle(Reshape(shape));
    assert [] + CensusOf(body).convs + [] == CensusOf(body).convs;
    assert [] + CensusOf(body).activations + [] == CensusOf(body).activations;
  }

  /** The convolutions and activations of a convolutional encoder. */
  lemma ConvEncoderCensus(cfg: NetworkConfig, shape: seq<int>, encName: Option<string>)
    requires cfg.network == ConvKind
    requires CreateNetwork(cfg, Some(shape), true, encName).Success?
    ensures |shape| == 3
    ensures AsArgTuples(Many(cfg.units), cfg.block, Some(cfg.window), Scalar(None)).Success?
    ensures var specs := AsArgTuples(Many(cfg.units), cfg.block, Some(cfg.window), Scalar(None)).value;
            var e := CensusOf(CreateNetwork(cfg, Some(shape), true, encName).value.layers);
      e.convs == Mains(ConvMain(2, false), specs, 0) && e.activations == Activations(specs)
  {
    assert CreateNetwork(cfg, Some(shape), true, encName).value.layers ==
      ConvNetwork(Many(cfg.units), Some(2), Some(shape), cfg.window, cfg.block, cfg.inputDropout, cfg.projection).value;
    ConvNetworkLayout(Many(cfg.units), Some(2), Some(shape), cfg.window, cfg.block, cfg.inputDropout, cfg.projection);
  }

  /** A convolutional decoder is start layers, transposed body and a final reshape. */
  lemma ConvDecoderParts(cfg: NetworkConfig, enc: EncoderView, latent: seq<int>, body: Result<seq<Layer>>)
    requires |enc.layerShapes| >= 3
    ensures var start := DecoderStart(cfg, latent, enc.layerShapes[|enc.layerShapes| - 3]);
      start.Success? && body.Success? ==>
      ConvDecoderLayers(cfg, enc, latent, body) == Success(start.value + body.value + [Reshape(enc.inputShape)])
  {
  }

  /** A convolutional decoder around a body that was built has the
      convolutions and activations of that body. */
  lemma ConvDecoderLayersCensus(cfg: NetworkConfig, enc: EncoderView, latent: seq<int>, body: Result<seq<Layer>>)
    requires |enc.layerShapes| >= 3
    requires DecoderStart(cfg, latent, enc.layerShapes[|enc.layerShapes| - 3]).Success? && body.Success?
    ensures ConvDecoderLayers(cfg, enc, latent, body).Success?
    ensures CensusOf(ConvDecoderLayers(cfg, enc, latent, body).value).convs == CensusOf(body.value).convs
    ensures CensusOf(ConvDecoderLayers(cfg, enc, latent, body).value).activations == CensusOf(body.value).activations
  {
    ConvDecoderParts(cfg, enc, latent, body);
    StartBodyCensus(ConvDecoderLayers(cfg, enc, latent, body), cfg, latent, enc.layerShapes[|enc.layerShapes| - 3],
                    body.value, enc.inputShape);
  }

  /** Layers made of a decoder's start, a body and a final reshape have the
      convolutions and activations of the body. */
  lemma StartBodyCensus(layers: Result<seq<Layer>>, cfg: NetworkConfig, latent: seq<int>, eshape: seq<int>,
                        body: seq<Layer>, shape: seq<int>)
    requires DecoderStart(cfg, latent, eshape).Success?
    requires layers == Success(DecoderStart(cfg, latent, eshape).value + body + [Reshape(shape)])
    ensures CensusOf(layers.value).convs == CensusOf(body).convs
    ensures CensusOf(layers.value).activations == CensusOf(body).activations
  {
    DecoderStartCensus(cfg, latent, eshape);
    LayersCensus(layers, DecoderStart(cfg, latent, eshape).value, body, shape,
                 CensusOf(body).convs, CensusOf(body).activations);
  }

  lemma LayersCensus(layers: Result<seq<Layer>>, start: seq<Layer>, body: seq<Layer>, shape: seq<int>,
                     convs: seq<Layer>, acts: seq<Layer>)
    requires layers == Success(start + body + [Reshape(shape)])
    requires CensusOf(start).convs == [] && CensusOf(start).activations == []
    requires CensusOf(body).convs == convs && CensusOf(body).activations == acts
    ensures CensusOf(layers.value).convs == convs && CensusOf(layers.value).activations == acts
  {
    ConvDecoderCensus(start, body, shape);
  }

  /** A convolutional decoder that can be built holds the layers of `ConvDecoderLayers`. */
  lemma ConvDecoderIsLayers(cfg: NetworkConfig, enc: EncoderView, latent: seq<int>, nParam: int, name: Option<string>)
    requires cfg.network == ConvKind && !cfg.linearDecoder && enc.inputShape != []
    ensures var layers := ConvDecoderLayers(cfg, enc, latent, ConvDecoderBody(cfg, enc.inputShape, nParam));
      layers.Success? ==>
        CreateDecoder(cfg, enc, latent, nParam, name) == Success(SequentialDecoder(layers.value, name.GetOr("Decoder")))
  {
  }

  /** A convolutional decoder for an image input whose mirrored settings
      broadcast can be built, and its convolutions and activations are
      those its argument tuples describe. */
  lemma ConvDecoderMains(cfg: NetworkConfig, shape: seq<int>, layerShapes: seq<seq<int>>,
                         latent: seq<int>, nParam: int, name: Option<string>)
    requires cfg.network == ConvKind && !cfg.linearDecoder && |shape| == 3 && |layerShapes| >= 3
    requires cfg.projection.SizeProjection? ==> cfg.block.activation.Scalar?
    requires AsArgTuples(Many(DecoderUnits(cfg.units, shape[|shape| - 1] * nParam)), MirrorBlock(cfg.block),
                         Some(MirrorWindow(cfg.window)), Scalar(None)).Success?
    ensures CreateDecoder(cfg, EncoderView(shape, layerShapes), latent, nParam, name).Success?
    ensures var specs := AsArgTuples(Many(DecoderUnits(cfg.units, shape[|shape| - 1] * nParam)), MirrorBlock(cfg.block),
                                     Some(MirrorWindow(cfg.window)), Scalar(None)).value;
            var d := CensusOf(CreateDecoder(cfg, EncoderView(shape, layerShapes), latent, nParam, name).value.layers);
      d.convs == Mains(ConvMain(2, true), specs, 0) && d.activations == Activations(specs)
  {
    var enc := EncoderView(shape, layerShapes);
    var body := ConvDecoderBody(cfg, shape, nParam);
    ConvDecoderBodyMains(cfg, shape, nParam);
    ConvDecoderLayersCensus(cfg, enc, latent, body);
    ConvDecoderIsLayers(cfg, enc, latent, nParam, name);
  }

  /** The transposed body of a decoder for an image input is built at rank
      2 whenever its mirrored settings broadcast. */
  lemma ConvDecoderBodyMains(cfg: NetworkConfig, shape: seq<int>, nParam: int)
    requires |shape| == 3
    requires AsArgTuples(Many(DecoderUnits(cfg.units, shape[|shape| - 1] * nParam)), MirrorBlock(cfg.block),
                         Some(MirrorWindow(cfg.window)), Scalar(None)).Success?
    ensures ConvDecoderBody(cfg, shape, nParam).Success?
    ensures var specs := AsArgTuples(Many(DecoderUnits(cfg.units, shape[|shape| - 1] * nParam)), MirrorBlock(cfg.block),
                                     Some(MirrorWindow(cfg.window)), Scalar(None)).value;
            var b := CensusOf(ConvDecoderBody(cfg, shape, nParam).value);
      b.convs == Mains(ConvMain(2, true), specs, 0) && b.activations == Activations(specs)
  {
    assert DecoderRank(shape) == 2 && InferRank(Some(2), None).value.rank == 2;
    DeconvNetworkMains(Many(DecoderUnits(cfg.units, shape[|shape| - 1] * nParam)), Some(DecoderRank(shape)),
                       MirrorWindow(cfg.window), MirrorBlock(cfg.block), cfg.inputDropout);
  }

  /** A convolutional decoder mirrors its encoder: its transposed
      convolutions have the encoder's filters in reverse order without the
      innermost one, then the image channels times the number of
      parameters; its activations are the encoder's in reverse order. */
  lemma ConvDecoderMirrorsEncoder(cfg: NetworkConfig, shape: seq<int>, layerShapes: seq<seq<int>>,
                                  latent: seq<int>, nParam: int, name: Option<string>, encName: Option<string>)
    requires cfg.network == ConvKind && !cfg.linearDecoder
    requires CreateNetwork(cfg, Some(shape), true, encName).Success?
    requires cfg.units != [] && |layerShapes| >= 3
    requires cfg.projection.SizeProjection? ==> cfg.block.activation.Scalar?
    ensures |shape| == 3
    ensures CreateDecoder(cfg, EncoderView(shape, layerShapes), latent, nParam, name).Success?
    ensures var e := CensusOf(CreateNetwork(cfg, Some(shape), true, encName).value.layers);
            var d := CensusOf(CreateDecoder(cfg, EncoderView(shape, layerShapes), latent, nParam, name).value.layers);
      && Widths(d.convs) == Drop1(Reverse(Widths(e.convs))) + [shape[2] * nParam]
      && d.activations == Reverse(e.activations)
  {
    ConvEncoderCensus(cfg, shape, encName);
    var units, b, w := cfg.units, cfg.block, cfg.window;
    var u2 := DecoderUnits(units, shape[|shape| - 1] * nParam);
    AsArgTuplesMirror(Many(units), u2, b, Some(w), None);
    var encSpecs := AsArgTuples(Many(units), b, Some(w), Scalar(None)).value;
    var decSpecs := AsArgTuples(Many(u2), MirrorBlock(b), Some(MirrorWindow(w)), Scalar(None)).value;
    ConvDecoderMains(cfg, shape, layerShapes, latent, nParam, name);
    MainsWidths(ConvMain(2, false), encSpecs, 0);
    MainsWidths(ConvMain(2, true), decSpecs, 0);
    AsArgTuplesUnits(Many(units), b, Some(w), Scalar(None));
    MirroredUnits(encSpecs, decSpecs, u2);
    MirroredActivations(encSpecs, decSpecs, u2);
  }

  // ---------------------------------------------------------------------
  // create_autoencoder
  // ---------------------------------------------------------------------

  function Suffixed(name: Option<string>, suffix: string): Option<string>
  {
    match name
    case None => None
    case Some(n) => Some(n + suffix)
  }

  /** The layers Keras lists in `Sequential.layers`: every layer but the
      input layers. */
  function KerasLayers(ls: seq<Layer>): (r: seq<Layer>)
    ensures |r| <= |ls|
    ensures forall l | l in r :: l in ls && !l.InputLayer?
    ensures (forall i | 0 <= i < |ls| :: !ls[i].InputLayer?) ==> r == ls
  {
    if ls == [] then []
    else if ls[0].InputLayer? then KerasLayers(ls[1..])
    else [ls[0]] + KerasLayers(ls[1..])
  }

  /** The output shape of every layer Keras lists for `layers`, where
      `infer` stands for Keras's shape inference: the output shape of a
      layer given the layers up to and including it. */
  function OutputShapes(layers: seq<Layer>, infer: seq<Layer> -> seq<int>): (r: seq<seq<int>>)
    ensures |r| == |KerasLayers(layers)|
    ensures forall i | 0 <= i < |r| :: r[i] == infer(KerasLayers(layers)[..i + 1])
  {
    var ks := KerasLayers(layers);
    seq(|ks|, i requires 0 <= i < |ks| => infer(ks[..i + 1]))
  }

  /** `create_autoencoder`: the encoder for `inputShape` named
      "<name>_encoder", and its decoder (one parameter per output) named
      "<name>_decoder", built from that encoder's input shape and the
      output shapes of its layers. */
  function CreateAutoencoder(cfg: NetworkConfig, inputShape: seq<int>, latent: seq<int>,
                             infer: seq<Layer> -> seq<int>, name: Option<string>): (r: Result<(Network, Decoder)>)
    ensures var e := CreateNetwork(cfg, Some(inputShape), true, Suffixed(name, "_encoder"));
      r.Success? <==>
      && e.Success?
      && CreateDecoder(cfg, EncoderView(inputShape, OutputShapes(e.value.layers, infer)), latent, 1,
                       Suffixed(name, "_decoder")).Success?
    ensures r.Success? ==>
      && r.value.0.SequentialNetwork?
      && r.value.0.name == (if cfg.name.Some? then cfg.name else Suffixed(name, "_encoder"))
      && r.value.1.name == Suffixed(name, "_decoder").GetOr("Decoder")
  {
    var encoder :- CreateNetwork(cfg, Some(inputShape), true, Suffixed(name, "_encoder"));
    var decoder :- CreateDecoder(cfg, EncoderView(inputShape, OutputShapes(encoder.layers, infer)), latent, 1,
                                 Suffixed(name, "_decoder"));
    Success((encoder, decoder))
  }

  /** A convolutional autoencoder whose encoder has fewer than three layers
      besides its input fails: the decoder reads the output shape of the
      third layer from the end. */
  lemma ConvAutoencoderNeedsThreeLayers(cfg: NetworkConfig, inputShape: seq<int>, latent: seq<int>,
                                        infer: seq<Layer> -> seq<int>, name: Option<string>)
    requires cfg.network == ConvKind && !cfg.linearDecoder && inputShape != []
    requires CreateNetwork(cfg, Some(inputShape), true, Suffixed(name, "_encoder")).Success?
    ensures var e := CreateNetwork(cfg, Some(inputShape), true, Suffixed(name, "_encoder")).value;
      |KerasLayers(e.layers)| < 3 <==> CreateAutoencoder(cfg, inputShape, latent, infer, name) == Failure(IndexOutOfRange)
  {
    var e := CreateNetwork(cfg, Some(inputShape), true, Suffixed(name, "_encoder")).value;
    var enc := EncoderView(inputShape, OutputShapes(e.layers, infer));
    ConvDecoderEnds(cfg, enc, latent, 1, Suffixed(name, "_decoder"));
    if |KerasLayers(e.layers)| >= 3 {
      var body := ConvDecoderBody(cfg, inputShape, 1);
      var start := DecoderStart(cfg, latent, enc.layerShapes[|enc.layerShapes| - 3]);
      ConvDecoderParts(cfg, enc, latent, body);
      ConvDecoderIsLayers(cfg, enc, latent, 1, Suffixed(name, "_decoder"));
    }
  }

  /** One convolution with a scalar "relu", no batch norm, no dropout and no
      projection: its encoder holds an input layer, the convolution and its
      activation, so Keras lists two layers and the autoencoder fails. */
  lemma SingleConvAutoencoderFails(infer: seq<Layer> -> seq<int>)
    ensures var w := Scalar(None);
            var cfg := NetworkConfig([64], WindowArgs(Scalar(3), Scalar(1), Scalar("same"), Scalar(1)),
                                     BlockArgs(Scalar("relu"), Scalar(true), Scalar(false), Scalar(0.0),
                                               WeightArgs(w, w, w, w, w, w, w)),
                                     0.0, false, ConvKind, true, NoProjection, None, None);
      CreateAutoencoder(cfg, [28, 28, 1], [10], infer, None) == Failure(IndexOutOfRange)
  {
    var w := Scalar(None);
    var cfg := NetworkConfig([64], WindowArgs(Scalar(3), Scalar(1), Scalar("same"), Scalar(1)),
                             BlockArgs(Scalar("relu"), Scalar(true), Scalar(false), Scalar(0.0),
                                       WeightArgs(w, w, w, w, w, w, w)),
                             0.0, false, ConvKind, true, NoProjection, None, None);
    var e := CreateNetwork(cfg, Some([28, 28, 1]), true, None);
    assert e.Success?;
    assert |KerasLayers(e.value.layers)| == 2;
    ConvAutoencoderNeedsThreeLayers(cfg, [28, 28, 1], [10], infer, None);
  }
}

=== FILE: layers.dfy ===
/** The Keras layers the recipes emit, as abstract constructors, plus the
    tools the structural contracts are phrased with: the census of a layer
    list, kind by kind, and the "Layer%d" naming scheme. */
module Layers {
  import opened Results

  /** The initializer, regularizer and constraint settings handed unchanged
      to every Dense or convolution layer (names, or None for "not set"). */
  datatype WeightSettings = WeightSettings(
    kernelInitializer: Option<string>,
    biasInitializer: Option<string>,
    kernelRegularizer: Option<string>,
    biasRegularizer: Option<string>,
    activityRegularizer: Option<string>,
    kernelConstraint: Option<string>,
    biasConstraint: Option<string>)

  /** Keras' own defaults, used by the layers the builders create without settings. */
  const KerasDefaultWeights: WeightSettings :=
    WeightSettings(Some("glorot_uniform"), Some("zeros"), None, None, None, None, None)

  /** The sliding-window geometry of a convolution; `outputPadding` only
      exists for transposed convolutions and is None otherwise. */
  datatype Window = Window(kernel: int, strides: int, padding: string, dilation: int, outputPadding: Option<int>)

  /** One Keras layer. `Conv` stands for Conv1D/2D/3D (`transposed` false)
      and Conv1DTranspose/Conv2DTranspose (`transposed` true); its `units`
      are the filters and its `window` the broadcast window arguments (the
      builders always supply them). A `name` of None leaves naming to Keras. */
  datatype Layer =
    | InputLayer(shape: seq<int>)
    | Flatten
    | Dropout(rate: real)
    | Dense(units: int, activation: string, useBias: bool, name: Option<string>, weights: WeightSettings)
    | Conv(rank: int, transposed: bool, units: int, window: Option<Window>, useBias: bool,
           name: Option<string>, weights: WeightSettings)
    | BatchNorm
    | Activation(activation: string)
    | Reshape(shape: seq<int>)

  /** How many layers of each kind a list holds, keeping the layers whose
      contents the recipes' contracts talk about (input layers, linear layers,
      activations, reshapes) in their original order. */
  datatype Census = Census(
    inputs: seq<Layer>,
    flattens: nat,
    dropouts: nat,
    denses: seq<Layer>,
    convs: seq<Layer>,
    batchnorms: nat,
    activations: seq<Layer>,
    reshapes: seq<Layer>)

  const NoLayers := Census([], 0, 0, [], [], 0, [], [])

  /** The census of two lists laid end to end. */
  function Plus(a: Census, b: Census): Census
  {
    Census(a.inputs + b.inputs, a.flattens + b.flattens, a.dropouts + b.dropouts,
           a.denses + b.denses, a.convs + b.convs, a.batchnorms + b.batchnorms,
           a.activations + b.activations, a.reshapes + b.reshapes)
  }

  /** The census of a single layer. */
  function CensusOfLayer(l: Layer): Census
  {
    match l
    case InputLayer(_) => NoLayers.(inputs := [l])
    case Flatten => NoLayers.(flattens := 1)
    case Dropout(_) => NoLayers.(dropouts := 1)
    case Dense(_, _, _, _, _) => NoLayers.(denses := [l])
    case Conv(_, _, _, _, _, _, _) => NoLayers.(convs := [l])
    case BatchNorm => NoLayers.(batchnorms := 1)
    case Activation(_) => NoLayers.(activations := [l])
    case Reshape(_) => NoLayers.(reshapes := [l])
  }

  function CensusOf(ls: seq<Layer>): Census
  {
    if ls == [] then NoLayers else Plus(CensusOfLayer(ls[0]), CensusOf(ls[1..]))
  }

  /** Adding nothing changes nothing. */
  lemma PlusNoLayers(c: Census)
    ensures Plus(c, NoLayers) == c && Plus(NoLayers, c) == c
  {
    assert c.inputs + [] == c.inputs && [] + c.inputs == c.inputs;
    assert c.denses + [] == c.denses && [] + c.denses == c.denses;
    assert c.convs + [] == c.convs && [] + c.convs == c.convs;
    assert c.activations + [] == c.activations && [] + c.activations == c.activations;
    assert c.reshapes + [] == c.reshapes && [] + c.reshapes == c.reshapes;
  }

  lemma PlusAssociative(a: Census, b: Census, c: Census)
    ensures Plus(a, Plus(b, c)) == Plus(Plus(a, b), c)
  {
    assert a.inputs + (b.inputs + c.inputs) == (a.inputs + b.inputs) + c.inputs;
    assert a.denses + (b.denses + c.denses) == (a.denses + b.denses) + c.denses;
    assert a.convs + (b.convs + c.convs) == (a.convs + b.convs) + c.convs;
    assert a.activations + (b.activations + c.activations) == (a.activations + b.activations) + c.activations;
    assert a.reshapes + (b.reshapes + c.reshapes) == (a.reshapes + b.reshapes) + c.reshapes;
  }

  /** Counting layer kinds is additive over concatenation: the basis of
      every layer-count argument about the recipes. */
  lemma {:induction false} CensusAppend(a: seq<Layer>, b: seq<Layer>)
    ensures CensusOf(a + b) == Plus(CensusOf(a), CensusOf(b))
    decreases |a|
  {
    if a == [] {
      assert a + b == b;
      PlusNoLayers(CensusOf(b));
    } else {
      assert (a + b)[0] == a[0];
      assert (a + b)[1..] == a[1..] + b;
      CensusAppend(a[1..], b);
      PlusAssociative(CensusOfLayer(a[0]), CensusOf(a[1..]), CensusOf(b));
    }
  }

  lemma CensusAppend3(a: seq<Layer>, b: seq<Layer>, c: seq<Layer>)
    ensures CensusOf(a + b + c) == Plus(Plus(CensusOf(a), CensusOf(b)), CensusOf(c))
  {
    CensusAppend(a + b, c);
    CensusAppend(a, b);
  }

  lemma CensusAppend4(a: seq<Layer>, b: seq<Layer>, c: seq<Layer>, d: seq<Layer>)
    ensures CensusOf(a + b + c + d) == Plus(Plus(Plus(CensusOf(a), CensusOf(b)), CensusOf(c)), CensusOf(d))
  {
    CensusAppend(a + b + c, d);
    CensusAppend3(a, b, c);
  }

  lemma CensusSingle(l: Layer)
    ensures CensusOf([l]) == CensusOfLayer(l)
  {
    assert [l][1..] == [];
    PlusNoLayers(CensusOfLayer(l));
  }

  /** The census of a list that holds one layer when `c` and nothing otherwise. */
  lemma CensusOptional(c: bool, l: Layer)
    ensures CensusOf(if c then [l] else []) == if c then CensusOfLayer(l) else NoLayers
  {
    if c { CensusSingle(l); }
  }

  lemma PlusFields(x: seq<Layer>, f: nat, d: nat)
    ensures Plus(Plus(NoLayers.(inputs := x), NoLayers.(flattens := f)), NoLayers.(dropouts := d))
         == NoLayers.(inputs := x, flattens := f, dropouts := d)
  {
    assert x + [] + [] == x;
  }

  lemma PlusInputsDropouts(x: seq<Layer>, d: nat)
    ensures Plus(NoLayers.(inputs := x), NoLayers.(dropouts := d)) == NoLayers.(inputs := x, dropouts := d)
  {
    assert x + [] == x;
  }

  // ---------------------------------------------------------------------
  // "Layer%d" % i
  // ---------------------------------------------------------------------

  function Digit(d: nat): char
    requires d < 10
  {
    ('0' as int + d) as char
  }

  /** Python's `"%d" % n` for a non-negative n. */
  function Decimal(n: nat): (s: string)
    ensures 1 <= |s|
    ensures n < 10 <==> |s| == 1
    ensures forall c | c in s :: '0' <= c <= '9'
  {
    if n < 10 then [Digit(n)] else Decimal(n / 10) + [Digit(n % 10)]
  }

  /** Different numbers print differently. */
  lemma {:induction false} DecimalInjective(a: nat, b: nat)
    requires Decimal(a) == Decimal(b)
    ensures a == b
  {
    if a >= 10 && b >= 10 {
      var sa, sb := Decimal(a / 10), Decimal(b / 10);
      assert Decimal(a) == sa + [Digit(a % 10)];
      assert Decimal(b) == sb + [Digit(b % 10)];
      assert |sa| == |sb|;
      assert Digit(a % 10) == Decimal(a)[|sa|] == Decimal(b)[|sb|] == Digit(b % 10);
      assert sa == Decimal(a)[..|sa|] == Decimal(b)[..|sb|] == sb;
      DecimalInjective(a / 10, b / 10);
    } else if a < 10 && b < 10 {
      assert Digit(a) == Decimal(a)[0] == Decimal(b)[0] == Digit(b);
    }
  }

  /** The name every hidden block's main layer receives. */
  function LayerName(i: nat): string
  {
    "Layer" + Decimal(i)
  }

  /** Hidden layers with different indices get different names, as Keras
      requires inside one Sequential model. */
  lemma LayerNameInjective(i: nat, j: nat)
    requires LayerName(i) == LayerName(j)
    ensures i == j
  {
    assert Decimal(i) == LayerName(i)[5..] == LayerName(j)[5..] == Decimal(j);
    DecimalInjective(i, j);
  }
}

=== FILE: optimizers.dfy ===
/** `_to_optimizer`: turning the optimizer, learning-rate and clipnorm
    arguments of `Networks.fit` into a list of optimizers. Two versions are
    given: the helper as written, and the evidently intended one that the
    training model uses. */
module Optimizers {
  import opened Results
  import opened Args

  /** What a caller may pass as one optimizer: a Keras optimizer name such
      as "adam", an optimizer instance, an optimizer class, or anything else.
      Instances and classes are identified by an opaque number. */
  datatype OptSpec = OptName(name: string) | OptInstance(id: nat) | OptClass(id: nat) | OptOther

  /** An optimizer ready for `apply_gradients`: one Keras looks up by name
      and configures, an instance the caller built, or one constructed here
      from a class. A clipnorm of None means no clipping. */
  datatype Optimizer =
    | Named(name: string, learningRate: real, clipnorm: Option<real>)
    | Instance(id: nat)
    | Constructed(id: nat, learningRate: real, clipnorm: Option<real>)

  /** Python's `xs * n` for a one-element list; any other list is left alone. */
  function Stretch<T>(xs: seq<T>, n: nat): (r: seq<T>)
    ensures |xs| == 1 ==> |r| == n && forall i | 0 <= i < n :: r[i] == xs[0]
    ensures |xs| != 1 ==> r == xs
  {
    if |xs| == 1 then seq(n, _ => xs[0]) else xs
  }

  function Min3(a: nat, b: nat, c: nat): (m: nat)
    ensures m <= a && m <= b && m <= c
    ensures m == a || m == b || m == c
  {
    if a <= b && a <= c then a else if b <= c then b else c
  }

  /** The for-loop of `_to_optimizer`: the first failure raises, otherwise
      every optimizer is appended in order. */
  function Collect(rs: seq<Result<Optimizer>>): (r: Result<seq<Optimizer>>)
    ensures r.Success? <==> forall i | 0 <= i < |rs| :: rs[i].Success?
    ensures r.Success? ==> |r.value| == |rs| && forall i | 0 <= i < |rs| :: r.value[i] == rs[i].value
    ensures r.Failure? ==> exists k | 0 <= k < |rs| :: rs[k].Failure? && r.error == rs[k].error
                                                     && forall j | 0 <= j < k :: rs[j].Success?
    decreases |rs|
  {
    if rs == [] then Success([])
    else
      var head :- rs[0];
      var tail :- Collect(rs[1..]);
      assert forall i | 1 <= i < |rs| :: rs[i] == rs[1..][i - 1];
      Success([head] + tail)
  }

  /** Collecting a prefix of a list that collects successfully gives the
      corresponding prefix. */
  lemma {:induction false} CollectPrefix(rs: seq<Result<Optimizer>>, m: nat)
    requires m <= |rs| && Collect(rs).Success?
    ensures Collect(rs[..m]).Success? && Collect(rs[..m]).value == Collect(rs).value[..m]
  {
    var p := Collect(rs[..m]);
    assert forall i | 0 <= i < m :: rs[..m][i] == rs[i];
    assert |p.value| == m;
    assert forall i | 0 <= i < m :: p.value[i] == Collect(rs).value[i];
  }

  // ---------------------------------------------------------------------
  // As written
  // ---------------------------------------------------------------------

  /** One zipped triple as written: a class is called with `float` of the
      whole learning-rate list, which raises TypeError whatever the list holds. */
  function ConvertAsWritten(o: OptSpec, lr: real, clip: Option<real>): (r: Result<Optimizer>)
    ensures r.Failure? <==> o.OptClass? || o.OptOther?
  {
    match o
    case OptName(n) => Success(Named(n, lr, clip))
    case OptInstance(id) => Success(Instance(id))
    case OptClass(_) => Failure(OptimizerClassCall)
    case OptOther => Failure(UnsupportedOptimizer)
  }

  /** `_to_optimizer` as written: a single learning rate is repeated once per
      optimizer, but a single clipnorm is repeated `len(clipnorm)` times,
      that is left as one entry, and `zip` stops at the shortest list. */
  function ToOptimizersAsWritten(opts: Arg<OptSpec>, lr: Arg<real>, clip: Arg<Option<real>>): (r: Result<seq<Optimizer>>)
    ensures r.Success? ==> |r.value| <= |AsList(opts)| && |r.value| <= |AsList(clip)|
    ensures r.Failure? ==> r.error == OptimizerClassCall || r.error == UnsupportedOptimizer
  {
    var os := AsList(opts);
    var lrs := Stretch(AsList(lr), |os|);
    var clips := Stretch(AsList(clip), |AsList(clip)|);
    var m := Min3(|os|, |lrs|, |clips|);
    Collect(seq(m, i requires 0 <= i < m => ConvertAsWritten(os[i], lrs[i], clips[i])))
  }

  // ---------------------------------------------------------------------
  // As intended
  // ---------------------------------------------------------------------

  /** One zipped triple: a name is configured with its learning rate and
      clipnorm, an instance is kept, a class is constructed with its own
      learning rate and clipnorm, anything else is refused. */
  function Convert(o: OptSpec, lr: real, clip: Option<real>): (r: Result<Optimizer>)
    ensures r.Failure? <==> o.OptOther?
    ensures r.Failure? ==> r.error == UnsupportedOptimizer
    ensures o.OptName? ==> r == Success(Named(o.name, lr, clip))
    ensures o.OptInstance? ==> r == Success(Instance(o.id))
    ensures o.OptClass? ==> r == Success(Constructed(o.id, lr, clip))
  {
    match o
    case OptName(n) => Success(Named(n, lr, clip))
    case OptInstance(id) => Success(Instance(id))
    case OptClass(id) => Success(Constructed(id, lr, clip))
    case OptOther => Failure(UnsupportedOptimizer)
  }

  /** `_to_optimizer` with the clipnorm repeated once per optimizer and
      classes constructed per entry. When the learning rates and clipnorms
      broadcast to the optimizers, optimizer i gets the i-th of each. */
  function ToOptimizers(opts: Arg<OptSpec>, lr: Arg<real>, clip: Arg<Option<real>>): (r: Result<seq<Optimizer>>)
    ensures r.Failure? ==> r.error == UnsupportedOptimizer
    ensures r.Success? ==> |r.value| <= |AsList(opts)|
    ensures Fits(lr, |AsList(opts)|) && Fits(clip, |AsList(opts)|) ==>
      var os := AsList(opts);
      && (r.Success? <==> forall i | 0 <= i < |os| :: !os[i].OptOther?)
      && (r.Success? ==>
            && |r.value| == |os|
            && forall i | 0 <= i < |os| :: r.value[i] == Convert(os[i], Entry(lr, i), Entry(clip, i)).value)
  {
    var os := AsList(opts);
    var lrs := Stretch(AsList(lr), |os|);
    var clips := Stretch(AsList(clip), |os|);
    var m := Min3(|os|, |lrs|, |clips|);
    StretchEntries(lr, |os|);
    StretchEntries(clip, |os|);
    var rs := seq(m, i requires 0 <= i < m => Convert(os[i], lrs[i], clips[i]));
    assert forall i | 0 <= i < m :: rs[i].Success? <==> !os[i].OptOther?;
    Collect(rs)
  }

  /** A broadcast argument, repeated as `_to_optimizer` repeats it, gives
      entry i to optimizer i. */
  lemma StretchEntries<T>(a: Arg<T>, n: nat)
    ensures Fits(a, n) ==>
      |Stretch(AsList(a), n)| == n && forall i | 0 <= i < n :: Stretch(AsList(a), n)[i] == Entry(a, i)
  {
  }

  /** Without optimizer classes, the helper as written returns a prefix of
      the intended list: the same optimizers, possibly fewer. */
  lemma AsWrittenIsPrefix(opts: Arg<OptSpec>, lr: Arg<real>, clip: Arg<Option<real>>)
    requires forall i | 0 <= i < |AsList(opts)| :: !AsList(opts)[i].OptClass?
    requires ToOptimizers(opts, lr, clip).Success?
    ensures ToOptimizersAsWritten(opts, lr, clip).Success?
    ensures ToOptimizersAsWritten(opts, lr, clip).value <= ToOptimizers(opts, lr, clip).value
  {
    var os := AsList(opts);
    var lrs := Stretch(AsList(lr), |os|);
    var clipsW, clips := Stretch(AsList(clip), |AsList(clip)|), Stretch(AsList(clip), |os|);
    var mW, m := Min3(|os|, |lrs|, |clipsW|), Min3(|os|, |lrs|, |clips|);
    var rsW := seq(mW, i requires 0 <= i < mW => ConvertAsWritten(os[i], lrs[i], clipsW[i]));
    var rs := seq(m, i requires 0 <= i < m => Convert(os[i], lrs[i], clips[i]));
    assert mW <= m;
    assert forall i | 0 <= i < mW :: clipsW[i] == clips[i];
    assert rsW == rs[..mW];
    CollectPrefix(rs, mW);
  }

  /** Finding: with the default clipnorm of None, two optimizer names and
      one learning rate give a single optimizer as written. */
  lemma ClipnormStretchDropsOptimizers()
    ensures ToOptimizersAsWritten(Many([OptName("adam"), OptName("sgd")]), Scalar(0.001), Scalar(None))
         == Success([Named("adam", 0.001, None)])
  {
    var r := ToOptimizersAsWritten(Many([OptName("adam"), OptName("sgd")]), Scalar(0.001), Scalar(None));
    var lrs := Stretch(AsList(Scalar(0.001)), 2);
    assert |lrs| == 2 && lrs[0] == 0.001;
    assert Min3(2, 2, 1) == 1;
    assert r == Collect([ConvertAsWritten(OptName("adam"), 0.001, None)]);
    assert r.Success? && |r.value| == 1;
    assert r.value[0] == Named("adam", 0.001, None);
    assert r.value == [Named("adam", 0.001, None)];
  }

  /** The intended helper gives both optimizers for the same arguments. */
  lemma ClipnormStretchIntended()
    ensures ToOptimizers(Many([OptName("adam"), OptName("sgd")]), Scalar(0.001), Scalar(None))
         == Success([Named("adam", 0.001, None), Named("sgd", 0.001, None)])
  {
    var os := [OptName("adam"), OptName("sgd")];
    var r := ToOptimizers(Many(os), Scalar(0.001), Scalar(None));
    assert Fits(Scalar(0.001), 2) && Fits<Option<real>>(Scalar(None), 2);
    assert !os[0].OptOther? && !os[1].OptOther?;
    assert r.Success? && |r.value| == 2;
    assert r.value[0] == Named("adam", 0.001, None);
    assert r.value[1] == Named("sgd", 0.001, None);
    assert r.value == [Named("adam", 0.001, None), Named("sgd", 0.001, None)];
  }

  /** Finding: a lone optimizer class, with at least one learning rate and
      one clipnorm, raises as written. */
  lemma OptimizerClassAlwaysFails(id: nat, lr: Arg<real>, clip: Arg<Option<real>>)
    requires |AsList(clip)| >= 1 && |AsList(lr)| >= 1
    ensures ToOptimizersAsWritten(Scalar(OptClass(id)), lr, clip) == Failure(OptimizerClassCall)
  {
    var os := AsList(Scalar(OptClass(id)));
    var lrs := Stretch(AsList(lr), 1);
    var clips := Stretch(AsList(clip), |AsList(clip)|);
    assert Min3(1, |lrs|, |clips|) == 1;
    var rs := seq(1, i requires 0 <= i < 1 => ConvertAsWritten(os[i], lrs[i], clips[i]));
    assert rs == [Failure(OptimizerClassCall)];
    assert ToOptimizersAsWritten(Scalar(OptClass(id)), lr, clip) == Collect(rs);
  }

  /** As written, a class after a name is never reached when the default
      clipnorm stops `zip` after the first entry, so nothing is raised. */
  lemma ClassAfterNameNotReached(id: nat)
    ensures ToOptimizersAsWritten(Many([OptName("adam"), OptClass(id)]), Scalar(0.001), Scalar(None))
            == Success([Named("adam", 0.001, None)])
  {
    var os := [OptName("adam"), OptClass(id)];
    var lrs := Stretch([0.001], 2);
    var clips := Stretch([None], 1);
    assert Min3(2, |lrs|, |clips|) == 1;
    var rs := seq(1, i requires 0 <= i < 1 => ConvertAsWritten(os[i], lrs[i], clips[i]));
    assert rs == [Success(Named("adam", 0.001, None))];
    assert ToOptimizersAsWritten(Many(os), Scalar(0.001), Scalar(None)) == Collect(rs);
    assert Collect(rs).value == [Named("adam", 0.001, None)];
  }

  /** The intended helper constructs the class with the learning rate. */
  lemma OptimizerClassIntended(id: nat, lr: real, clip: Option<real>)
    ensures ToOptimizers(Scalar(OptClass(id)), Scalar(lr), Scalar(clip)) == Success([Constructed(id, lr, clip)])
  {
    var r := ToOptimizers(Scalar(OptClass(id)), Scalar(lr), Scalar(clip));
    assert Fits(Scalar(lr), 1) && Fits(Scalar(clip), 1);
    assert AsList(Scalar(OptClass(id)))[0] == OptClass(id);
    assert r.Success? && |r.value| == 1;
    assert r.value[0] == Constructed(id, lr, clip);
    assert r.value == [Constructed(id, lr, clip)];
  }
}

=== FILE: results.dfy ===
/** Optional values, the exceptions the network builders raise, and a
    failure-compatible result type so that `:-` can propagate them. */
module Results {

  datatype Option<+T> = None | Some(value: T) {

    /** The value held, or `default` when there is none (Python's `x if x is not None else d`). */
    function GetOr(default: T): T
    {
      match this
      case Some(v) => v
      case None => default
    }
  }

  /** One constructor per exception the modelled code raises. */
  datatype Error =
    | MissingRankAndShape    // ValueError: neither rank nor input_shape given
    | RankShapeMismatch      // ValueError: rank != len(input_shape) - 1
    | ArgLengthMismatch      // ValueError from as_tuple: a list argument of the wrong length
    | UnsupportedRank        // NotImplementedError: transposed convolution of rank 3
    | UnboundLayerType       // UnboundLocalError: rank outside 1..3 reaches the layer loop
    | UnknownNetwork         // AssertionError in NetworkConfig.__post_init__
    | NoEncoderForNetwork    // NotImplementedError in create_network (lstm, gru, rnn)
    | NoDecoderForNetwork    // NotImplementedError in create_decoder
    | IndexOutOfRange        // IndexError on an encoder shape or layer list that is too short
    | ActivationNotScalar    // a list activation handed to a single Dense layer
    | UnsupportedOptimizer   // ValueError: not a name, an instance or an optimizer class
    | OptimizerClassCall     // TypeError: float() applied to a list
    | NoOptimizer            // RuntimeError("No optimizer found!"), or `None.apply_gradients`
    | ZeroOptimizers         // ZeroDivisionError: `step_idx % 0`

  datatype Result<+T> = Success(value: T) | Failure(error: Error) {

    predicate IsFailure()
    {
      Failure?
    }

    function PropagateFailure<U>(): Result<U>
      requires Failure?
    {
      Failure(error)
    }

    function Extract(): T
      requires Success?
    {
      value
    }
  }
}

=== FILE: training.dfy ===
/** The training bookkeeping of `Networks`: the step counter, `is_fitted`,
    how `optimize` picks an optimizer for each training step, and the
    checks `fit` makes before it hands over to the trainer. */
module Training {
  import opened Results
  import opened Args
  import opened Optimizers
  import opened Builders

  /** The step counter is a float32 variable: every integer up to 2^24 is
      exact, and adding one to 2^24 rounds back to 2^24. */
  const ExactStepLimit: int := 0x100_0000

  /** The counter values the model covers: integers float32 holds exactly. */
  type StepCount = s: int | -ExactStepLimit <= s <= ExactStepLimit

  /** `step.assign_add(1)` in float32. */
  function AddOne(s: StepCount): (r: StepCount)
    ensures s < ExactStepLimit ==> r == s + 1
    ensures s == ExactStepLimit ==> r == s
  {
    if s == ExactStepLimit then s else s + 1
  }

  /** `is_fitted`: the network has taken at least one training step. */
  predicate IsFitted(step: StepCount)
  {
    step > 0
  }

  /** The state `optimize` and `fit` read and write: the step counter, the
      optimizers `fit` created (None until then) and whether a trainer exists. */
  datatype NetState = NetState(step: StepCount, optimizers: Option<seq<Optimizer>>, hasTrainer: bool)

  /** A new network: `step` as given to the constructor, no optimizer, no trainer. */
  function NewNetState(step: StepCount): (st: NetState)
    ensures st.step == step && st.optimizers.None? && !st.hasTrainer
    ensures IsFitted(st.step) <==> step > 0
  {
    NetState(step, None, false)
  }

  // ---------------------------------------------------------------------
  // optimize
  // ---------------------------------------------------------------------

  /** The optimizer slots `optimize` cycles through: the ones passed in,
      otherwise the network's own list, otherwise a single empty slot. */
  function Slots(own: Option<seq<Optimizer>>, given: Option<Arg<Optimizer>>): (r: seq<Option<Optimizer>>)
    ensures given.Some? ==>
      |r| == |AsList(given.value)| && forall i | 0 <= i < |r| :: r[i] == Some(AsList(given.value)[i])
    ensures given.None? && own.Some? ==>
      |r| == |own.value| && forall i | 0 <= i < |r| :: r[i] == Some(own.value[i])
    ensures given.None? && own.None? ==> r == [None]
  {
    match given
    case Some(a) => var os := AsList(a); seq(|os|, i requires 0 <= i < |os| => Some(os[i]))
    case None =>
      match own
      case Some(os) => seq(|os|, i requires 0 <= i < |os| => Some(os[i]))
      case None => [None]
  }

  /** What one call of `optimize` does with the train steps: the slot index
      each step uses, or the exception it raises. */
  datatype OptimizeOutcome = OptimizeOutcome(state: NetState, schedule: Result<seq<nat>>)

  /** `optimize(inputs, training, optimizer)` for `steps` train steps. The
      counter advances first when training, even if a step then raises.
      Step k uses slot `k % n`; with no slots at all the first step raises
      ZeroDivisionError, and an empty slot raises when its step trains.
      Validation steps pick a slot but never use it. */
  method Optimize(st: NetState, training: bool, given: Option<Arg<Optimizer>>, steps: nat)
    returns (out: OptimizeOutcome)
    ensures out.state == st.(step := if training then AddOne(st.step) else st.step)
    ensures var slots := Slots(st.optimizers, given);
      && (out.schedule.Success? <==>
            steps == 0 || (|slots| > 0 && (training ==> forall k | 0 <= k < steps :: slots[k % |slots|].Some?)))
      && (out.schedule.Failure? ==>
            if |slots| == 0 then out.schedule.error == ZeroOptimizers else out.schedule.error == NoOptimizer)
      && (out.schedule.Success? ==>
            && |out.schedule.value| == steps
            && forall k | 0 <= k < steps ::
                 out.schedule.value[k] == k % |slots| && (training ==> slots[out.schedule.value[k]].Some?))
  {
    var next := if training then AddOne(st.step) else st.step;
    var slots := Slots(st.optimizers, given);
    var n := |slots|;
    var schedule: seq<nat> := [];
    var k := 0;
    while k < steps
      invariant 0 <= k <= steps
      invariant k > 0 ==> n > 0
      invariant |schedule| == k
      invariant forall j | 0 <= j < k :: schedule[j] == j % n && (training ==> slots[j % n].Some?)
    {
      if n == 0 {
        return OptimizeOutcome(st.(step := next), Failure(ZeroOptimizers));
      }
      var slot := k % n;
      if training && slots[slot].None? {
        return OptimizeOutcome(st.(step := next), Failure(NoOptimizer));
      }
      schedule := schedule + [slot];
      k := k + 1;
    }
    return OptimizeOutcome(st.(step := next), Success(schedule));
  }

  /** How often slot j is used in the first `steps` steps of a round-robin
      over n slots. */
  function Uses(steps: nat, n: nat, j: nat): nat
    requires n > 0
  {
    if steps == 0 then 0 else Uses(steps - 1, n, j) + (if (steps - 1) % n == j then 1 else 0)
  }

  /** The round-robin is fair: every slot is used `steps / n` times, and the
      first `steps % n` slots once more. */
  lemma {:induction false} UsesFair(steps: nat, n: nat, j: nat)
    requires 0 <= j < n
    ensures Uses(steps, n, j) == steps / n + (if j < steps % n then 1 else 0)
  {
    if steps > 0 {
      var p := steps - 1;
      UsesFair(p, n, j);
      DivModNext(p, n);
      var q, r, q1, r1 := p / n, p % n, steps / n, steps % n;
      assert Uses(steps, n, j) == q + (if j < r then 1 else 0) + (if r == j then 1 else 0);
      if r == n - 1 {
        assert q1 == q + 1 && r1 == 0;
      } else {
        assert q1 == q && r1 == r + 1;
      }
    }
  }

  /** How often slot j appears in a schedule. */
  function Count(schedule: seq<nat>, j: nat): nat
  {
    if schedule == [] then 0
    else Count(schedule[..|schedule| - 1], j) + (if schedule[|schedule| - 1] == j then 1 else 0)
  }

  /** A schedule `optimize` produces over n slots uses slot j as often as
      the round-robin count says. */
  lemma {:induction false} ScheduleFair(schedule: seq<nat>, n: nat, j: nat)
    requires 0 <= j < n
    requires forall k | 0 <= k < |schedule| :: schedule[k] == k % n
    ensures Count(schedule, j) == |schedule| / n + (if j < |schedule| % n then 1 else 0)
  {
    ScheduleUses(schedule, n, j);
    UsesFair(|schedule|, n, j);
  }

  lemma {:induction false} ScheduleUses(schedule: seq<nat>, n: nat, j: nat)
    requires n > 0
    requires forall k | 0 <= k < |schedule| :: schedule[k] == k % n
    ensures Count(schedule, j) == Uses(|schedule|, n, j)
    decreases |schedule|
  {
    if schedule != [] {
      var init := schedule[..|schedule| - 1];
      assert forall k | 0 <= k < |init| :: init[k] == schedule[k];
      ScheduleUses(init, n, j);
    }
  }

  /** Counting up by one either wraps the remainder or increments it. */
  lemma DivModNext(a: nat, n: nat)
    requires n > 0
    ensures a % n == n - 1 ==> (a + 1) / n == a / n + 1 && (a + 1) % n == 0
    ensures a % n < n - 1 ==> (a + 1) / n == a / n && (a + 1) % n == a % n + 1
  {
    var q, r := a / n, a % n;
    assert a == q * n + r;
    if r == n - 1 {
      assert (q + 1) * n == q * n + n by {
        MulMonotone(q + 1, q + 1, n);
      }
      DivModUnique(a + 1, n, q + 1, 0);
    } else {
      DivModUnique(a + 1, n, q, r + 1);
    }
  }

  /** Quotient and remainder are determined by a decomposition. */
  lemma DivModUnique(a: nat, n: nat, q: nat, r: nat)
    requires 0 <= r < n && a == q * n + r
    ensures a / n == q && a % n == r
  {
    var q0, r0 := a / n, a % n;
    assert a == q0 * n + r0;
    if q0 < q {
      MulMonotone(q0 + 1, q, n);
      assert false;
    } else if q < q0 {
      MulMonotone(q + 1, q0, n);
      assert false;
    }
  }

  lemma MulMonotone(x: nat, y: nat, n: nat)
    requires x <= y
    ensures x * n <= y * n && (x - 1) * n + n == x * n
  {
    assert y * n == x * n + (y - x) * n;
  }

  /** `steps` training calls from step s leave the counter at s + steps,
      held at 2^24. */
  function Advance(s: StepCount, calls: nat): StepCount
    decreases calls
  {
    if calls == 0 then s else Advance(AddOne(s), calls - 1)
  }

  lemma {:induction false} AdvanceSaturates(s: StepCount, calls: nat)
    ensures Advance(s, calls) == if s + calls <= ExactStepLimit then s + calls else ExactStepLimit
    decreases calls
  {
    if calls > 0 {
      AdvanceSaturates(AddOne(s), calls - 1);
    }
  }

  /** One training call of `optimize` on a network that started at a
      non-negative step makes it fitted, whatever the call then raises. */
  method TrainingMakesFitted(st: NetState, given: Option<Arg<Optimizer>>, steps: nat) returns (out: OptimizeOutcome)
    requires st.step >= 0
    ensures IsFitted(out.state.step)
    ensures out.state == st.(step := AddOne(st.step))
  {
    out := Optimize(st, true, given, steps);
  }

  // ---------------------------------------------------------------------
  // fit
  // ---------------------------------------------------------------------

  /** `skip_fitted`: a flag, an int step count, or a float step count. */
  datatype SkipFitted = SkipFlag(flag: bool) | SkipAfter(steps: int) | SkipAfterFloat(x: real)

  /** `fit` returns at once: the network is fitted and `skip_fitted` is
      true, or is a truthy count that the step counter has reached once it
      is truncated with `int()`. */
  predicate Skips(step: StepCount, skip: SkipFitted)
  {
    IsFitted(step) &&
    match skip
    case SkipFlag(b) => b
    case SkipAfter(n) => n != 0 && step >= n
    case SkipAfterFloat(x) => x != 0.0 && step >= Trunc(x)
  }

  /** A float count strictly between 0 and 1 is truthy but truncates to 0,
      so a fitted network always skips. */
  lemma SkipFractionAlwaysSkips(step: StepCount, x: real)
    requires 0.0 < x < 1.0
    ensures Skips(step, SkipAfterFloat(x)) <==> IsFitted(step)
  {
    TruncTowardZero(x);
  }

  /** A float count holding a whole number behaves as that int. */
  lemma SkipIntegralFloat(step: StepCount, n: int)
    ensures Skips(step, SkipAfterFloat(n as real)) <==> Skips(step, SkipAfter(n))
  {
    TruncIntegral(n);
  }

  datatype FitOutcome = Skipped | Ready | Raised(error: Error)

  /** The checks `fit` makes before the trainer runs, given what the
      optimizer helper makes of the `optimizer` argument (None when no
      optimizer is passed): skip, create the trainer, create the optimizers
      if none exist yet, and raise when there still are none. */
  function FitWith(st: NetState, skip: SkipFitted, made: Option<Result<seq<Optimizer>>>): (NetState, FitOutcome)
  {
    if Skips(st.step, skip) then (st, Skipped)
    else
      var withTrainer := st.(hasTrainer := true);
      if st.optimizers.Some? || made.None? then
        (withTrainer, if st.optimizers.Some? then Ready else Raised(NoOptimizer))
      else
        match made.value
        case Success(os) => (withTrainer.(optimizers := Some(os)), Ready)
        case Failure(e) => (withTrainer, Raised(e))
  }

  /** `fit` with the intended optimizer helper. */
  function Fit(st: NetState, skip: SkipFitted, optimizer: Option<Arg<OptSpec>>,
               lr: Arg<real>, clip: Arg<Option<real>>): (r: (NetState, FitOutcome))
    ensures r.1 == Skipped <==> Skips(st.step, skip)
    ensures r.1 == Skipped ==> r.0 == st
    ensures r.1 != Skipped ==> r.0.hasTrainer && r.0.step == st.step
    ensures r.1 != Skipped && st.optimizers.Some? ==> r.0.optimizers == st.optimizers && r.1 == Ready
    ensures r.1 != Skipped && st.optimizers.None? ==>
      match optimizer
      case None => r.0.optimizers.None? && r.1 == Raised(NoOptimizer)
      case Some(o) =>
        var made := ToOptimizers(o, lr, clip);
        if made.Success? then r.0.optimizers == Some(made.value) && r.1 == Ready
        else r.0.optimizers.None? && r.1 == Raised(made.error)
  {
    FitWith(st, skip, if optimizer.None? then None else Some(ToOptimizers(optimizer.value, lr, clip)))
  }

  /** `fit` as written, with `_to_optimizer` as written. It differs from
      the intended `fit` only in the optimizers it creates. */
  function FitAsWritten(st: NetState, skip: SkipFitted, optimizer: Option<Arg<OptSpec>>,
                        lr: Arg<real>, clip: Arg<Option<real>>): (r: (NetState, FitOutcome))
    ensures r.1 == Skipped <==> Fit(st, skip, optimizer, lr, clip).1 == Skipped
    ensures st.optimizers.Some? || optimizer.None? ==> r == Fit(st, skip, optimizer, lr, clip)
    ensures r.1 != Skipped ==> r.0.hasTrainer && r.0.step == st.step
    ensures r.1 != Skipped && st.optimizers.None? && optimizer.Some? ==>
      var made := ToOptimizersAsWritten(optimizer.value, lr, clip);
      if made.Success? then r.0.optimizers == Some(made.value) && r.1 == Ready
      else r.0.optimizers.None? && r.1 == Raised(made.error)
  {
    FitWith(st, skip, if optimizer.None? then None else Some(ToOptimizersAsWritten(optimizer.value, lr, clip)))
  }

  /** Without optimizer classes, whenever the intended `fit` gets ready the
      one as written does too, in the same state except that it may hold
      fewer optimizers: a prefix of the intended ones. */
  lemma FitAsWrittenIsPrefix(st: NetState, skip: SkipFitted, o: Arg<OptSpec>, lr: Arg<real>, clip: Arg<Option<real>>)
    requires forall i | 0 <= i < |AsList(o)| :: !AsList(o)[i].OptClass?
    requires Fit(st, skip, Some(o), lr, clip).1 == Ready
    ensures var w, f := FitAsWritten(st, skip, Some(o), lr, clip), Fit(st, skip, Some(o), lr, clip);
      && w.1 == Ready
      && w.0.optimizers.Some? && f.0.optimizers.Some?
      && w.0.optimizers.value <= f.0.optimizers.value
      && w.0 == f.0.(optimizers := w.0.optimizers)
  {
    if st.optimizers.None? {
      AsWrittenIsPrefix(o, lr, clip);
    }
  }

  /** Finding at state level: a new network fitted with two optimizer names
      and the default clipnorm keeps only the first as written, both as
      intended. */
  lemma FitAsWrittenDropsOptimizer()
    ensures var o := Some(Many([OptName("adam"), OptName("sgd")]));
      && FitAsWritten(NewNetState(0), SkipFlag(false), o, Scalar(0.001), Scalar(None)).0.optimizers
         == Some([Named("adam", 0.001, None)])
      && Fit(NewNetState(0), SkipFlag(false), o, Scalar(0.001), Scalar(None)).0.optimizers
         == Some([Named("adam", 0.001, None), Named("sgd", 0.001, None)])
  {
    ClipnormStretchDropsOptimizers();
    ClipnormStretchIntended();
  }

  /** Finding at state level: fitting a new network with an optimizer class
      raises as written, and is ready as intended. */
  lemma FitAsWrittenRaisesForClass(id: nat, lr: real, clip: Option<real>)
    ensures FitAsWritten(NewNetState(0), SkipFlag(false), Some(Scalar(OptClass(id))), Scalar(lr), Scalar(clip)).1
            == Raised(OptimizerClassCall)
    ensures Fit(NewNetState(0), SkipFlag(false), Some(Scalar(OptClass(id))), Scalar(lr), Scalar(clip))
            == (NetState(0, Some([Constructed(id, lr, clip)]), true), Ready)
  {
    OptimizerClassAlwaysFails(id, Scalar(lr), Scalar(clip));
    OptimizerClassIntended(id, lr, clip);
  }

  /** A network that has not trained yet never skips `fit`: it creates its
      trainer, and it becomes ready exactly when it is given an optimizer
      the helper accepts, holding the optimizers the helper made. */
  lemma {:induction false} FitNewNetwork(s: StepCount, skip: SkipFitted, optimizer: Option<Arg<OptSpec>>,
                                          lr: Arg<real>, clip: Arg<Option<real>>)
    requires s <= 0
    ensures var r := Fit(NewNetState(s), skip, optimizer, lr, clip);
      && r.1 != Skipped && r.0.hasTrainer && r.0.step == s
      && (r.1 == Ready <==> optimizer.Some? && ToOptimizers(optimizer.value, lr, clip).Success?)
      && (r.1 == Ready ==> r.0.optimizers == Some(ToOptimizers(optimizer.value, lr, clip).value))
      && (optimizer.None? ==> r.1 == Raised(NoOptimizer))
  {
    var st := NewNetState(s);
    assert !IsFitted(st.step);
  }

  /** A second `fit` keeps the optimizers the first one created and is
      ready whenever the first one was. */
  lemma FitKeepsOptimizers(st: NetState, skip: SkipFitted, o1: Option<Arg<OptSpec>>, o2: Option<Arg<OptSpec>>,
                           lr: Arg<real>, clip: Arg<Option<real>>, lr2: Arg<real>, clip2: Arg<Option<real>>)
    requires Fit(st, skip, o1, lr, clip).1 == Ready
    ensures var st1 := Fit(st, skip, o1, lr, clip).0;
      var r := Fit(st1, SkipFlag(false), o2, lr2, clip2);
      r.1 == Ready && r.0 == st1
  {
  }

  /** After a training step from a non-negative counter, `fit` with
      `skip_fitted=True` does nothing. */
  method TrainThenSkip(st: NetState, given: Option<Arg<Optimizer>>, steps: nat, optimizer: Option<Arg<OptSpec>>,
                       lr: Arg<real>, clip: Arg<Option<real>>) returns (r: (NetState, FitOutcome))
    requires st.step >= 0
    ensures r.1 == Skipped && r.0.step == AddOne(st.step)
  {
    var out := TrainingMakesFitted(st, given, steps);
    r := Fit(out.state, SkipFlag(true), optimizer, lr, clip);
  }
}
